=== FILE: README.md ===
# PojavLauncher core, modelled in Dafny

PojavLauncher is an Android launcher for Minecraft: Java Edition. This project
models six of its Java classes and proves properties of the models:

- **ModItemAdapter** (modules `ModpackSearch`, `ModpackRows`, `ModpackAdapter`):
  the paginated mod/modpack search list. A search session accumulates result
  pages fetched by background tasks. The list shows the items followed by a
  loading row while more pages may exist. Each row (`ViewHolder`) can expand to
  fetch the item's details in its own background task. Every background step
  (a worker starting, a worker returning, the runnable it posts to the main
  thread running) is an explicit event. The caller applies these events in any
  order it likes, so every interleaving the executor and the main-thread
  handler allow can be replayed.
- **ProfileAdapter** (`Profiles`): the launcher-profile spinner. It lists the
  profile names, then caller-supplied extra entries, and formats a profile's
  label and background.
- **ControlButton** (`ControlButtons`): an on-screen game control. Touch events
  press and release its keycodes. Toggle buttons flip on release. Swipeable
  buttons release when the finger slides off and press again when it slides
  back. Everything the button sends is appended to an output log.
- **HotbarView** (`Hotbar`): the touch strip over the game's hotbar. A touch
  selects the slot under the finger and sends that slot's number key.
- **ImportControlActivity** (`ImportControl`): the control-layout import
  screen. It covers the `trimFileName` name cleaner, the name-validity rule,
  the intent and verification flags, and the gating of the import.
- **LauncherActivity** (`Launcher`): the checks a launch request passes before
  the game download starts, and the notification-permission gate.

`wrappers.dfy` holds the `Option` type that stands for Java's nullable references.

### Reading the source

The ModItemAdapter source and `trimFileName` in ImportControlActivity do not
compile as they stand, so the model follows their evident intent:

- `mTaskInProgress`, `mViewHolderSet`, `mLoadingAdapter` and
  `mCornerDimensionCache` are used but never declared.
  - `mTaskInProgress` is an optional task id.
  - `mViewHolderSet` is a sequence of distinct rows.
  - `mLoadingAdapter` is the `LoadingAdapter` spinner source.
  - The corner radius is not modelled.
- `new SelfReferencingFuture<>(this::new SearchApiTask)` (ModItemAdapter.java:81
  and :125) is malformed. The model builds the task from the constructor at
  :344:
  - a new query gets the query's filters and a null previous result;
  - loading more gets the filters and `mCurrentResult`.
- `result` at :375 is not in scope there. The model takes it to be the
  `SearchResult` that `searchMod` returned for the page.
- `ERROR_INTERNAL` is declared but never sent.
- `trimFileName` (ImportControlActivity.java:164-172) calls `replace(String,
  String)`, `replaceAll` and `trim` on a `StringBuilder`, which has none of
  them. They are modelled with the semantics of `String.replace`,
  `String.replaceAll` and `String.trim`.

The model follows the code in these places:

- **Empty first page.** A first page with no results reports
  `ERROR_NO_RESULTS`, but it does not mark the last page. The list therefore
  still counts one loading row (`getItemCount` is 1, not 0), and binding that
  row asks for another page (`ModpackAdapter.SearchWithoutResults`).
- **Failed page.** A page whose API call fails posts nothing. Its task stays
  recorded as in progress, so no further page is requested for this search
  (`ModpackAdapter.FailedPageBlocksLoading`). A new search cancels and
  replaces that task.
- **New search.** `performSearchQuery` (ModItemAdapter.java:74-83) clears
  neither the listed items nor the current result. The previous query's items
  therefore stay listed until the new query's first page arrives, so a new
  search does not start from an empty list. The adapter's invariant
  (`ModpackAdapter.ModItemAdapter.Coherent`) says the list shows the current
  query's results except while that query's first page is in progress.

## Model

| member | source | states |
|---|---|---|
| ModpackSearch.CancelOutcome | app_pojavlauncher/src/main/java/net/kdt/pojavlaunch/modloaders/modpacks/ModItemAdapter.java:239-240 | `cancel(true)` leaves a future cancelled iff it already was or it had not completed: a done future cannot be cancelled |
| ModpackSearch.ListShape | app_pojavlauncher/src/main/java/net/kdt/pojavlaunch/modloaders/modpacks/ModItemAdapter.java:118-132 | the count is the items plus one loading row exactly while the last page is unseen; every position below the item count is an item, and the only other listed position is the loading row at `|items|` |
| ModpackSearch.ItemCount | app_pojavlauncher/src/main/java/net/kdt/pojavlaunch/modloaders/modpacks/ModItemAdapter.java:118-121 | the count is the number of items or one more, and exactly the number of items once the last page was seen |
| ModpackSearch.ItemViewType | app_pojavlauncher/src/main/java/net/kdt/pojavlaunch/modloaders/modpacks/ModItemAdapter.java:130-132 | every position gets an item view or the loading view, and an item view exactly below the number of items |
| ModpackSearch.LaterPageNotices | app_pojavlauncher/src/main/java/net/kdt/pojavlaunch/modloaders/modpacks/ModItemAdapter.java:381-384 | the change at the old loading position and an insertion of `inserted` items describe the count going from `prevLength + 1` to `prevLength + 1 + inserted`; the code inserts the whole new list's length, the corrected runnable the page's |
| ModpackSearch.LastPageNoticesAsWritten | app_pojavlauncher/src/main/java/net/kdt/pojavlaunch/modloaders/modpacks/ModItemAdapter.java:366-367 | a change at the loading position describes a count that stays at `prevLength + 1` |
| ModpackSearch.LastPageNotices | app_pojavlauncher/src/main/java/net/kdt/pojavlaunch/modloaders/modpacks/ModItemAdapter.java:366-367 | removing the loading row describes the count dropping from `prevLength + 1` to `prevLength` |
| ModpackSearch.LaterPageNoticesAsWrittenOvercount | app_pojavlauncher/src/main/java/net/kdt/pojavlaunch/modloaders/modpacks/ModItemAdapter.java:381-384 | the notices sent after a non-empty later page match the change of `getItemCount` iff the list was empty before, because the insertion is sized by the whole list |
| ModpackSearch.LaterPageNoticesAccount | app_pojavlauncher/src/main/java/net/kdt/pojavlaunch/modloaders/modpacks/ModItemAdapter.java:381-384 | sized by the page, the change at the old loading position plus the insertion match the change of `getItemCount` for every list and page |
| ModpackSearch.LastPageNoticesAsWrittenMismatch | app_pojavlauncher/src/main/java/net/kdt/pojavlaunch/modloaders/modpacks/ModItemAdapter.java:364-369 | reporting the end of the list as a change at the loading position never matches the drop of `getItemCount` by one |
| ModpackSearch.LastPageNoticesAccount | app_pojavlauncher/src/main/java/net/kdt/pojavlaunch/modloaders/modpacks/ModItemAdapter.java:364-369 | reporting the loading row as removed matches that drop for every list |
| ModpackRows.ViewHolder.constructor | app_pojavlauncher/src/main/java/net/kdt/pojavlaunch/modloaders/modpacks/ModItemAdapter.java:144-162 | a new row holds no item, detail, future or image request, and has no inflated detail view |
| ModpackRows.ViewHolder.SetStateLimited | app_pojavlauncher/src/main/java/net/kdt/pojavlaunch/modloaders/modpacks/ModItemAdapter.java:225-260 | rebinding forgets the detail, cancels the previous image request and the pending detail future, requests the new icon, binds the item and collapses the detail view; afterwards the row is coherent (it shows only the new item's state) whatever it showed before |
| ModpackRows.ViewHolder.UpdateInstallButtonState | app_pojavlauncher/src/main/java/net/kdt/pojavlaunch/modloaders/modpacks/ModItemAdapter.java:320-328 | an inflated install button is enabled iff install is enabled and no launcher task runs; a button not yet inflated is untouched |
| ModpackRows.ViewHolder.SetStateDetailed | app_pojavlauncher/src/main/java/net/kdt/pojavlaunch/modloaders/modpacks/ModItemAdapter.java:263-276 | a fetched detail enables install, hides the error and lists the detail's version names; a null detail collapses the view, disables install, shows the error and removes the version list |
| ModpackRows.ViewHolder.OnClick | app_pojavlauncher/src/main/java/net/kdt/pojavlaunch/modloaders/modpacks/ModItemAdapter.java:163-215 | the first click inflates and expands, later clicks toggle; a fetch is submitted exactly when the row ends up expanded with no detail and no pending future, and the detail view is then reset to loading; the row's coherence is preserved |
| ModpackRows.ViewHolder.RunDetailTask | app_pojavlauncher/src/main/java/net/kdt/pojavlaunch/modloaders/modpacks/ModItemAdapter.java:188-194 | a started detail worker asks about the item the row is bound to at that moment |
| ModpackRows.ViewHolder.PostDetail | app_pojavlauncher/src/main/java/net/kdt/pojavlaunch/modloaders/modpacks/ModItemAdapter.java:194-196 | as written, the worker's answer overwrites the row's detail at once, whatever item the row shows now; coherence survives only when this is still the row's pending future |
| ModpackRows.ViewHolder.PostDetailFixed | app_pojavlauncher/src/main/java/net/kdt/pojavlaunch/modloaders/modpacks/ModItemAdapter.java:194-196 | the corrected worker only hands its answer to its runnable, and the row stays coherent |
| ModpackRows.ViewHolder.FinishDetailTask | app_pojavlauncher/src/main/java/net/kdt/pojavlaunch/modloaders/modpacks/ModItemAdapter.java:188-213 | a worker that returned leaves its future done, so it can no longer be cancelled |
| ModpackRows.ViewHolder.RunPostedDetail | app_pojavlauncher/src/main/java/net/kdt/pojavlaunch/modloaders/modpacks/ModItemAdapter.java:196-212 | as written, the runnable of a cancelled future changes nothing visible; otherwise it clears the pending future and shows the detail the row holds now, with the install and error state of `setStateDetailed` |
| ModpackRows.ViewHolder.RunPostedDetailFixed | app_pojavlauncher/src/main/java/net/kdt/pojavlaunch/modloaders/modpacks/ModItemAdapter.java:196-212 | corrected, the runnable applies its own answer only while its future is the row's pending one, and otherwise leaves the row exactly as it is |
| ModpackRows.InstallTargetsShownItem | app_pojavlauncher/src/main/java/net/kdt/pojavlaunch/modloaders/modpacks/ModItemAdapter.java:171-174 | in a coherent row, an expanded row with an enabled install button holds the detail of the item it shows, so install acts on that item |
| ModpackRows.StaleDetailAsWritten | app_pojavlauncher/src/main/java/net/kdt/pojavlaunch/modloaders/modpacks/ModItemAdapter.java:194-211 | a row rebound from a to b while a's fetch runs ends up showing b with a's version list and an enabled install of a |
| ModpackRows.StaleDetailFixed | app_pojavlauncher/src/main/java/net/kdt/pojavlaunch/modloaders/modpacks/ModItemAdapter.java:194-211 | with the corrected worker and runnable, the same events leave b's row showing and installing b |
| ModpackRows.LateRunnableAsWritten | app_pojavlauncher/src/main/java/net/kdt/pojavlaunch/modloaders/modpacks/ModItemAdapter.java:203-211 | the runnable of a fetch that completed before the row was rebound passes its cancellation check; it drops the new item's pending fetch and collapses the row with an error |
| ModpackRows.LateRunnableFixed | app_pojavlauncher/src/main/java/net/kdt/pojavlaunch/modloaders/modpacks/ModItemAdapter.java:203-211 | with the corrected runnable, the new item's fetch stays pending and the row stays expanded without an error |
| ModpackAdapter.ApplyPageAsWritten | app_pojavlauncher/src/main/java/net/kdt/pojavlaunch/modloaders/modpacks/ModItemAdapter.java:364-384 | as written: an empty later page keeps the list and marks the last page; otherwise the list becomes the accumulated items and a current result is set; the last-page mark is set by nothing else; the first status is "no results" for an empty first page, a change at the loading position for an empty later page, and "finished" otherwise |
| ModpackAdapter.ApplyPage | app_pojavlauncher/src/main/java/net/kdt/pojavlaunch/modloaders/modpacks/ModItemAdapter.java:364-384 | the same outcome, except that an empty later page reports the loading row as removed |
| ModpackAdapter.ApplyPageKeepsResult | app_pojavlauncher/src/main/java/net/kdt/pojavlaunch/modloaders/modpacks/ModItemAdapter.java:375-382 | both versions of the page runnable leave the current result holding exactly the listed items |
| ModpackAdapter.ApplyPageCorrect | app_pojavlauncher/src/main/java/net/kdt/pojavlaunch/modloaders/modpacks/ModItemAdapter.java:358-385 | a first page replaces the list; a later page is appended in order; an empty later page marks the last page and keeps the list; "no results" is reported exactly for an empty first page and "finished" otherwise; the notices of the corrected runnable account for the change of `getItemCount` |
| ModpackAdapter.ApplyPageAsWrittenMiscounts | app_pojavlauncher/src/main/java/net/kdt/pojavlaunch/modloaders/modpacks/ModItemAdapter.java:364-384 | as written, the notices of a later page account for the change of `getItemCount` iff the page is non-empty and the list was empty |
| ModpackAdapter.ModItemAdapter.constructor | app_pojavlauncher/src/main/java/net/kdt/pojavlaunch/modloaders/modpacks/ModItemAdapter.java:52-72 | a new adapter has no items, expects more pages, and has no task, result, filters or rows |
| ModpackAdapter.ModItemAdapter.PerformSearchQuery | app_pojavlauncher/src/main/java/net/kdt/pojavlaunch/modloaders/modpacks/ModItemAdapter.java:74-83 | the task in progress is cancelled, the filters are stored, the last-page mark is cleared, and exactly one new first-page task is submitted and recorded |
| ModpackAdapter.ModItemAdapter.LoadMoreResults | app_pojavlauncher/src/main/java/net/kdt/pojavlaunch/modloaders/modpacks/ModItemAdapter.java:123-127 | while a task is in progress nothing happens, so repeated calls start at most one task; otherwise one task for the page after the current result is submitted |
| ModpackAdapter.ModItemAdapter.OnCreateViewHolder | app_pojavlauncher/src/main/java/net/kdt/pojavlaunch/modloaders/modpacks/ModItemAdapter.java:86-102 | an item view type creates a fresh row that joins the row set; the loading type creates the loading row; any other type throws |
| ModpackAdapter.ModItemAdapter.OnBindViewHolder | app_pojavlauncher/src/main/java/net/kdt/pojavlaunch/modloaders/modpacks/ModItemAdapter.java:104-116 | an item position rebinds its row to that item: the row's detail is forgotten, its pending fetch cancelled and cleared, and the row collapsed, leaving it coherent; the loading position loads more results and leaves the holder untouched |
| ModpackAdapter.ModItemAdapter.RunSearchTask | app_pojavlauncher/src/main/java/net/kdt/pojavlaunch/modloaders/modpacks/ModItemAdapter.java:349-351 | a page worker starts only if it was not cancelled before starting |
| ModpackAdapter.ModItemAdapter.CompleteSearchTask | app_pojavlauncher/src/main/java/net/kdt/pojavlaunch/modloaders/modpacks/ModItemAdapter.java:349-360 | a worker posts only when the API returned a non-null result with a non-null list, and the accumulated list it posts is the previous list followed by the page; the future is then done |
| ModpackAdapter.ModItemAdapter.ShowPageAsWritten | app_pojavlauncher/src/main/java/net/kdt/pojavlaunch/modloaders/modpacks/ModItemAdapter.java:364-384 | the listing and the events of the runnable past its guard, as written |
| ModpackAdapter.ModItemAdapter.ShowPage | app_pojavlauncher/src/main/java/net/kdt/pojavlaunch/modloaders/modpacks/ModItemAdapter.java:364-384 | the same with the corrected notices |
| ModpackAdapter.ModItemAdapter.OnSearchPosted | app_pojavlauncher/src/main/java/net/kdt/pojavlaunch/modloaders/modpacks/ModItemAdapter.java:361-385 | as written, the guard tests the task in the field, which is never a cancelled one: every posted page is applied, whatever query it belongs to, and the task in progress is cleared |
| ModpackAdapter.ModItemAdapter.OnSearchPostedFixed | app_pojavlauncher/src/main/java/net/kdt/pojavlaunch/modloaders/modpacks/ModItemAdapter.java:361-385 | corrected, a page is applied only while its own task is the one in progress, and otherwise changes nothing; the list keeps showing the current query's results |
| ModpackAdapter.ModItemAdapter.OnUpdateTaskCount | app_pojavlauncher/src/main/java/net/kdt/pojavlaunch/modloaders/modpacks/ModItemAdapter.java:134-140 | records whether any task runs and sets every inflated row's install button to enabled iff install is allowed and no task runs; uninflated rows keep their button, and no other field of any row changes, so every coherent row stays coherent |
| ModpackAdapter.StalePageAsWritten | app_pojavlauncher/src/main/java/net/kdt/pojavlaunch/modloaders/modpacks/ModItemAdapter.java:362 | a search for q2 issued while q1's first page loads ends with q1's results listed under q2's filters |
| ModpackAdapter.StalePageFixed | app_pojavlauncher/src/main/java/net/kdt/pojavlaunch/modloaders/modpacks/ModItemAdapter.java:362 | with the corrected guard, the same events list q2's results |
| ModpackAdapter.ListFirstPage | app_pojavlauncher/src/main/java/net/kdt/pojavlaunch/modloaders/modpacks/ModItemAdapter.java:74-83 | helper for `SearchToLastPage`: a new adapter that searched and received a non-empty first page lists exactly that page with the loading row after it, holds it as the current result, has no task in progress, and has reported "finished" and a data-set change |
| ModpackAdapter.SearchToLastPage | app_pojavlauncher/src/main/java/net/kdt/pojavlaunch/modloaders/modpacks/ModItemAdapter.java:110-127 | a non-empty first page lists the page and the loading row; binding the loading row fetches the next page; an empty next page ends the list, reported as a change at the loading position |
| ModpackAdapter.SearchWithoutResults | app_pojavlauncher/src/main/java/net/kdt/pojavlaunch/modloaders/modpacks/ModItemAdapter.java:364-379 | an empty first page reports no results and lists nothing, yet the count stays 1 and binding the loading row asks for another page; only an empty later page then ends the list, with the count 0 |
| ModpackAdapter.FailedPageBlocksLoading | app_pojavlauncher/src/main/java/net/kdt/pojavlaunch/modloaders/modpacks/ModItemAdapter.java:351-354 | a page whose API call fails leaves its task recorded as in progress, so binding the loading row never asks again |
| Profiles.KeysOf | app_pojavlauncher/src/main/java/net/kdt/pojavlaunch/profiles/ProfileAdapter.java:100 | the key list names every profile exactly once |
| Profiles.IndexOf | app_pojavlauncher/src/main/java/net/kdt/pojavlaunch/profiles/ProfileAdapter.java:85 | `indexOf` is the first position of the name, or -1 iff the name is absent |
| Profiles.ProfileAdapter.constructor | app_pojavlauncher/src/main/java/net/kdt/pojavlaunch/profiles/ProfileAdapter.java:45-47 | the adapter lists the loaded profiles' names, each once, and a null extras array becomes no extras |
| Profiles.ProfileAdapter.GetCount | app_pojavlauncher/src/main/java/net/kdt/pojavlaunch/profiles/ProfileAdapter.java:55-57 | the count is the profile names plus the extra entries |
| Profiles.ProfileAdapter.GetItem | app_pojavlauncher/src/main/java/net/kdt/pojavlaunch/profiles/ProfileAdapter.java:66-76 | a listed name is returned iff it has a profile, else null; positions after the names give the extra entry at that offset; positions from the count on give null; a negative position throws; while the list names the map's keys, every position below the count has an entry |
| Profiles.ProfileAdapter.ResolveProfileIndex | app_pojavlauncher/src/main/java/net/kdt/pojavlaunch/profiles/ProfileAdapter.java:84-86 | the first position of the name among the profiles, or -1 iff it is not listed; a resolved profile name is what `getItem` returns there |
| Profiles.ProfileAdapter.NotifyDataSetChanged | app_pojavlauncher/src/main/java/net/kdt/pojavlaunch/profiles/ProfileAdapter.java:97-106 | the profiles and the name list are rebuilt from the main profile file; when that file is null nothing changes |
| Profiles.ProfileAdapter.ReloadProfiles | app_pojavlauncher/src/main/java/net/kdt/pojavlaunch/profiles/ProfileAdapter.java:200-219 | null extras become none; the reload throws exactly when the main profile file is null, after the extras were stored; otherwise the count is the profiles plus the extras |
| Profiles.ProfileAdapter.SetViewProfile | app_pojavlauncher/src/main/java/net/kdt/pojavlaunch/profiles/ProfileAdapter.java:133-167 | the label is the profile's name or the "unnamed" label (also for a name without a profile); with a last version it is followed by " - " and the release or snapshot label for those aliases, in any letter case, or by the raw id; the background is highlighted iff selection display is on and the stored current profile is this name |
| Profiles.ReloadedPositionsResolve | app_pojavlauncher/src/main/java/net/kdt/pojavlaunch/profiles/ProfileAdapter.java:99-100 | after a reload, every position below the name list's size returns its name and resolves back to itself |
| ControlButtons.SpecialKeyEvents | app_pojavlauncher/src/main/java/net/kdt/pojavlaunch/customcontrols/buttons/ControlButton.java:196-233 | the primary, middle and secondary mouse buttons send GLFW buttons 0 (left), 2 (middle) and 1 (right); the keyboard, control-visibility and virtual-mouse buttons act on press only; scrolling acts on release only, down for scroll-down; the mouse buttons forward both press and release; the menu button acts on both; unknown codes do nothing |
| ControlButtons.PressEventsStep | app_pojavlauncher/src/main/java/net/kdt/pojavlaunch/customcontrols/buttons/ControlButton.java:186-193 | helper for `SendKeyPresses`: the events of one more keycode follow those of the keycodes before it |
| ControlButtons.SentAppend | app_pojavlauncher/src/main/java/net/kdt/pojavlaunch/customcontrols/buttons/ControlButton.java:186-193 | the keys sent by two event lists in a row are those of the first followed by those of the second |
| ControlButtons.KeyEventsMirror | app_pojavlauncher/src/main/java/net/kdt/pojavlaunch/customcontrols/buttons/ControlButton.java:187-192 | one keycode's release sends back exactly what its press sent, and neither sends the other direction |
| ControlButtons.ReleaseMirrorsPress | app_pojavlauncher/src/main/java/net/kdt/pojavlaunch/customcontrols/buttons/ControlButton.java:184-194 | releasing a button releases exactly the keys and mouse buttons that pressing it pressed, in the same order, and a press releases nothing |
| ControlButtons.ControlButton.constructor | app_pojavlauncher/src/main/java/net/kdt/pojavlaunch/customcontrols/buttons/ControlButton.java:36-52 | a new button is neither toggled nor out of bounds and has sent nothing |
| ControlButtons.ControlButton.SendKeyPresses | app_pojavlauncher/src/main/java/net/kdt/pojavlaunch/customcontrols/buttons/ControlButton.java:184-194 | the view's activated state becomes the direction, then every keycode's events are sent in order |
| ControlButtons.ControlButton.SendKeycode | app_pojavlauncher/src/main/java/net/kdt/pojavlaunch/customcontrols/buttons/ControlButton.java:187-192 | a keyboard keycode sends its key event and its modifier update; other codes go to special-key handling |
| ControlButtons.ControlButton.SendSpecialKey | app_pojavlauncher/src/main/java/net/kdt/pojavlaunch/customcontrols/buttons/ControlButton.java:196-233 | sends exactly the special button's events for that direction |
| ControlButtons.ControlButton.TriggerToggle | app_pojavlauncher/src/main/java/net/kdt/pojavlaunch/customcontrols/buttons/ControlButton.java:174-182 | returns true iff the button is a toggle; a toggle flips and sends presses for its new state; any other button is left unchanged |
| ControlButtons.ControlButton.ToggleOrRelease | app_pojavlauncher/src/main/java/net/kdt/pojavlaunch/customcontrols/buttons/ControlButton.java:161-163 | a toggle button flips; any other button releases its keys |
| ControlButtons.ControlButton.OnTouchEvent | app_pojavlauncher/src/main/java/net/kdt/pojavlaunch/customcontrols/buttons/ControlButton.java:113-171 | a move off the button releases (or toggles) a swipeable button the first time and marks the pointer out; a move back presses a swipeable non-toggle button again and clears the mark; a press presses non-toggle buttons only; a release clears the mark, then toggles or releases; any other action returns false and changes nothing |
| ControlButtons.ControlButton.Release | app_pojavlauncher/src/main/java/net/kdt/pojavlaunch/customcontrols/buttons/ControlButton.java:151-164 | the pointer counts as in bounds again, then the button toggles or releases |
| ControlButtons.SwipeOffAndBack | app_pojavlauncher/src/main/java/net/kdt/pojavlaunch/customcontrols/buttons/ControlButton.java:121-141 | a swipeable key pressed, slid off and slid back sends press, release, press of that key |
| ControlButtons.ToggleTwice | app_pojavlauncher/src/main/java/net/kdt/pojavlaunch/customcontrols/buttons/ControlButton.java:144-164 | a toggle key tapped twice goes down on the first release and up on the second, and nothing happens on the presses |
| Hotbar.FactorBelow | app_pojavlauncher/src/main/java/net/kdt/pojavlaunch/customcontrols/mouse/HotbarView.java:116 | helper for `ScaledBelow`: a common positive factor can be cancelled from a strict inequality |
| Hotbar.ScaledBelow | app_pojavlauncher/src/main/java/net/kdt/pojavlaunch/customcontrols/mouse/HotbarView.java:116 | helper for `SlotOf`: a position strictly inside the strip maps below slot 9 |
| Hotbar.SlotOf | app_pojavlauncher/src/main/java/net/kdt/pojavlaunch/customcontrols/mouse/HotbarView.java:110-116 | every admitted position maps to 0..9, and to 9 exactly at the right edge of a strip of positive width |
| Hotbar.SlotOfClamped | app_pojavlauncher/src/main/java/net/kdt/pojavlaunch/customcontrols/mouse/HotbarView.java:116 | the clamped slot always names a hotbar key, agrees with the unclamped map inside the strip, and is the last slot at the right edge |
| Hotbar.SlotMonotone | app_pojavlauncher/src/main/java/net/kdt/pojavlaunch/customcontrols/mouse/HotbarView.java:116 | slots run left to right: a position further right never selects an earlier slot |
| Hotbar.IsLastEventInGesture | app_pojavlauncher/src/main/java/net/kdt/pojavlaunch/customcontrols/mouse/HotbarView.java:142-144 | a release or a cancel ends the gesture; a press or a move never does |
| Hotbar.HotbarView.constructor | app_pojavlauncher/src/main/java/net/kdt/pojavlaunch/customcontrols/mouse/HotbarView.java:37-63 | a new strip is detached, has width 0, and has slot 0 selected |
| Hotbar.HotbarView.OnAttachedToWindow | app_pojavlauncher/src/main/java/net/kdt/pojavlaunch/customcontrols/mouse/HotbarView.java:66-74 | without a parent view nothing happens; otherwise the parent is recorded, the game's scale taken and the view repositioned |
| Hotbar.HotbarView.OnTouchEvent | app_pojavlauncher/src/main/java/net/kdt/pojavlaunch/customcontrols/mouse/HotbarView.java:100-134 | not grabbing: not handled, nothing changes; outside the strip: the drop gesture is cancelled, no key is sent and the slot is kept; on the selected slot: F only on a double tap with swap-hand enabled; on a new slot: the slot is recorded and its key sent exactly once, the key lookup throwing exactly for slot 9, and the gesture is resubmitted only when the event is not the last of the gesture |
| Hotbar.HotbarView.OnTouchEventClamped | app_pojavlauncher/src/main/java/net/kdt/pojavlaunch/customcontrols/mouse/HotbarView.java:100-134 | with the edge clamped, the lookup never throws, the recorded slot always names a key, and a new slot sends exactly its key |
| Hotbar.HotbarView.Run | app_pojavlauncher/src/main/java/net/kdt/pojavlaunch/customcontrols/mouse/HotbarView.java:168-174 | the scale is recorded and the view repositioned only while attached and when the scale changed |
| Hotbar.HotbarView.OnLayoutChange | app_pojavlauncher/src/main/java/net/kdt/pojavlaunch/customcontrols/mouse/HotbarView.java:190-198 | a reposition is posted only for the parent view and only when one of its edges moved |
| Hotbar.RightEdgeAsWritten | app_pojavlauncher/src/main/java/net/kdt/pojavlaunch/customcontrols/mouse/HotbarView.java:111-125 | a touch at the right edge records slot 9 and the key lookup throws, so no key is sent |
| Hotbar.RightEdgeClamped | app_pojavlauncher/src/main/java/net/kdt/pojavlaunch/customcontrols/mouse/HotbarView.java:111-125 | clamped, the same touch selects the last slot and sends its key |
| ImportControl.RemoveAll | app_pojavlauncher/src/main/java/net/kdt/pojavlaunch/ImportControlActivity.java:166 | removing ".json" never lengthens the name |
| ImportControl.ReplacePercentEscapes | app_pojavlauncher/src/main/java/net/kdt/pojavlaunch/ImportControlActivity.java:167 | replacing each "%" followed by two characters other than line terminators by a slash never lengthens the name, and a name without "%" is unchanged |
| ImportControl.RemoveChar | app_pojavlauncher/src/main/java/net/kdt/pojavlaunch/ImportControlActivity.java:168-169 | the removed character is absent afterwards, the name is not lengthened, and a name without it is unchanged |
| ImportControl.RemoveCharKeepsAbsent | app_pojavlauncher/src/main/java/net/kdt/pojavlaunch/ImportControlActivity.java:168-169 | removing one character adds no other character |
| ImportControl.SliceKeepsAbsent | app_pojavlauncher/src/main/java/net/kdt/pojavlaunch/ImportControlActivity.java:170 | helper for `TrimFileName`: a character absent from a string is absent from every slice of it |
| ImportControl.LeadingBlanks | app_pojavlauncher/src/main/java/net/kdt/pojavlaunch/ImportControlActivity.java:170 | the number of leading characters `<= ' '` is at most the length |
| ImportControl.TrailingBlanks | app_pojavlauncher/src/main/java/net/kdt/pojavlaunch/ImportControlActivity.java:170 | the number of trailing characters `<= ' '` is at most the length |
| ImportControl.LeadingBlanksShape | app_pojavlauncher/src/main/java/net/kdt/pojavlaunch/ImportControlActivity.java:170 | everything before the count is blank, and the character at the count is not |
| ImportControl.TrailingBlanksShape | app_pojavlauncher/src/main/java/net/kdt/pojavlaunch/ImportControlActivity.java:170 | everything after the count is blank, and the character before it is not |
| ImportControl.Trim | app_pojavlauncher/src/main/java/net/kdt/pojavlaunch/ImportControlActivity.java:170 | trimming never lengthens the string |
| ImportControl.TrimShape | app_pojavlauncher/src/main/java/net/kdt/pojavlaunch/ImportControlActivity.java:170 | the trimmed string is the slice between the leading and trailing blanks, which are all `<= ' '`, and it starts and ends with a character `> ' '` |
| ImportControl.TrimKeepsTrimmed | app_pojavlauncher/src/main/java/net/kdt/pojavlaunch/ImportControlActivity.java:170 | a string that starts and ends with a character `> ' '` is unchanged by trimming |
| ImportControl.TrimFileName | app_pojavlauncher/src/main/java/net/kdt/pojavlaunch/ImportControlActivity.java:164-172 | the cleaned name has no slash and no backslash, starts and ends with a character `> ' '`, and is never longer than the input |
| ImportControl.RemoveAllAbsent | app_pojavlauncher/src/main/java/net/kdt/pojavlaunch/ImportControlActivity.java:166 | a name without ".json" is unchanged by its removal |
| ImportControl.KeepsPlainNames | app_pojavlauncher/src/main/java/net/kdt/pojavlaunch/ImportControlActivity.java:164-172 | a name with no ".json", "%", slash or backslash whose ends are printable is left exactly as it is |
| ImportControl.RemoveJsonJoins | app_pojavlauncher/src/main/java/net/kdt/pojavlaunch/ImportControlActivity.java:166 | removing ".json" from ".js.jsonon" leaves ".json" |
| ImportControl.CleaningJoinsJson | app_pojavlauncher/src/main/java/net/kdt/pojavlaunch/ImportControlActivity.java:164-172 | ".js.jsonon" cleans to ".json" |
| ImportControl.CleaningRemovesJson | app_pojavlauncher/src/main/java/net/kdt/pojavlaunch/ImportControlActivity.java:164-172 | ".json" cleans to the empty name |
| ImportControl.TrimFileNameNotIdempotent | app_pojavlauncher/src/main/java/net/kdt/pojavlaunch/ImportControlActivity.java:105-107 | cleaning twice can differ from cleaning once: ".js.jsonon" cleans to ".json" and then to "" |
| ImportControl.UriOf | app_pojavlauncher/src/main/java/net/kdt/pojavlaunch/ImportControlActivity.java:177-186 | the intent's data is preferred, then the first clip item's URI, which may be null; there is no URI iff there is no data and the clip is missing, empty or its first item holds no URI; any URI found comes from the data or the clip |
| ImportControl.ImportControlActivity.constructor | app_pojavlauncher/src/main/java/net/kdt/pojavlaunch/ImportControlActivity.java:36-49 | a new screen has its launch intent marked changed and no verified file |
| ImportControl.ImportControlActivity.OnNewIntent | app_pojavlauncher/src/main/java/net/kdt/pojavlaunch/ImportControlActivity.java:56-59 | a non-null intent replaces the current one; either way the intent counts as changed |
| ImportControl.ImportControlActivity.GetUriData | app_pojavlauncher/src/main/java/net/kdt/pojavlaunch/ImportControlActivity.java:177-186 | the URI becomes the one `UriOf` picks from the current intent, null when the first clip item holds only text |
| ImportControl.ImportControlActivity.OnPostResume | app_pojavlauncher/src/main/java/net/kdt/pojavlaunch/ImportControlActivity.java:65-98 | nothing unless the intent changed; then the file counts as unverified; without a URI the screen finishes and the change stays pending; with one, the cleaned name fills the editor, the change is consumed and one verification starts |
| ImportControl.ImportControlActivity.EditName | app_pojavlauncher/src/main/java/net/kdt/pojavlaunch/ImportControlActivity.java:104-105 | the editor holds the text the user typed |
| ImportControl.ImportControlActivity.OnVerificationFinished | app_pojavlauncher/src/main/java/net/kdt/pojavlaunch/ImportControlActivity.java:79-90 | a valid file is marked verified; an invalid one finishes the screen |
| ImportControl.ImportControlActivity.StartImport | app_pojavlauncher/src/main/java/net/kdt/pojavlaunch/ImportControlActivity.java:104-128 | the name check comes before the verified check; nothing is copied and the screen stays unless both pass; then the temporary file, if it exists, is copied under the cleaned non-empty name and the screen finishes |
| ImportControl.IsFileNameValid | app_pojavlauncher/src/main/java/net/kdt/pojavlaunch/ImportControlActivity.java:151-157 | a name whose file already exists is refused; an accepted name cleans to a non-empty name without slash or backslash that starts with a character `> ' '`, so the destination stays in the controls directory |
| ImportControl.TextOnlyClipFinishes | app_pojavlauncher/src/main/java/net/kdt/pojavlaunch/ImportControlActivity.java:65-75 | an intent whose first clip item holds only text finishes the screen without starting a verification, and the change stays pending |
| ImportControl.NewIntentNeedsVerification | app_pojavlauncher/src/main/java/net/kdt/pojavlaunch/ImportControlActivity.java:56-75 | a verified file stops counting as verified once a new intent arrives and the screen resumes |
| Launcher.LaunchGate | app_pojavlauncher/src/main/java/net/kdt/pojavlaunch/LauncherActivity.java:113-147 | running tasks refuse the launch before any profile check; a missing profile file, an unknown selected profile, or a profile with a null, missing or "Unknown" version gives "no version"; then a missing account gives "no account"; a download starts iff every check passes, for the normalized version id |
| Launcher.HasLaunchableVersion | app_pojavlauncher/src/main/java/net/kdt/pojavlaunch/LauncherActivity.java:127-130 | a missing profile, a profile without a version and a profile whose version is "Unknown" cannot be launched; any other version can |
| Launcher.CheckForNotificationPermission | app_pojavlauncher/src/main/java/net/kdt/pojavlaunch/LauncherActivity.java:315-319 | the permission counts as missing iff the Android version is 33 or later and the permission is denied |
| Launcher.LauncherActivity.constructor | app_pojavlauncher/src/main/java/net/kdt/pojavlaunch/LauncherActivity.java:158-160 | a new activity has started no download and no permission request, and it takes the skip-check preference as stored |
| Launcher.LauncherActivity.OnLaunchGame | app_pojavlauncher/src/main/java/net/kdt/pojavlaunch/LauncherActivity.java:113-147 | acts on the launch gate's decision: a missing account also asks for a sign-in method, only an accepted launch starts a download, and the event is never consumed |
| Launcher.LauncherActivity.OnTaskCountChanged | app_pojavlauncher/src/main/java/net/kdt/pojavlaunch/LauncherActivity.java:197-205 | the game-start notification is cancelled iff some task runs |
| Launcher.LauncherActivity.HandleNoNotificationPermission | app_pojavlauncher/src/main/java/net/kdt/pojavlaunch/LauncherActivity.java:307-313 | the permission check is skipped from then on, both now and in the stored preference |
| Launcher.LauncherActivity.AskForNotificationPermission | app_pojavlauncher/src/main/java/net/kdt/pojavlaunch/LauncherActivity.java:321-327 | below Android 13 nothing happens; otherwise a non-null runnable is remembered for success and exactly one request is launched |
| Launcher.LauncherActivity.CheckNotificationPermission | app_pojavlauncher/src/main/java/net/kdt/pojavlaunch/LauncherActivity.java:283-296 | nothing happens when the check is skipped or the permission is present; otherwise the rationale is shown when the system asks for one, else a request without a runnable is launched |
| Launcher.LauncherActivity.OnPermissionResult | app_pojavlauncher/src/main/java/net/kdt/pojavlaunch/LauncherActivity.java:149-156 | a refusal stops further asking and runs nothing; a grant runs the remembered runnable iff it is still alive |
| Launcher.LaunchStartsSelectedVersion | app_pojavlauncher/src/main/java/net/kdt/pojavlaunch/LauncherActivity.java:126-146 | with a valid selected profile, the launch downloads exactly that profile's normalized version when an account is selected, asks for one otherwise, and is refused while tasks run |
| Launcher.NoRequestBeforeTiramisu | app_pojavlauncher/src/main/java/net/kdt/pojavlaunch/LauncherActivity.java:315-327 | below Android 13 the permission flow never requests and never shows a dialog |

## Left out

- Threads, the executor, `Handler.post` and `AtomicBoolean` are not modelled as concurrency. Each worker start, worker return and posted runnable is a separate event method, and the caller chooses their order.
- A detail worker's exception (an unchecked exception from `getModDetails`) is not modelled; a worker either posts a detail or posts null.
- A page worker that throws is modelled like one that returns null: nothing is posted.
- The network API (`searchMod`, `getModDetails`, `handleInstallation`) is not modelled. Its answers are inputs; installing is not modelled at all.
- `ModIconCache` and `ImageReceiver` internals, bitmap recycling and the icon's corner radius are not modelled. Only the request and cancel calls are logged, with receivers named by number.
- The icon's callback clearing `mImageReceiver` is not modelled: the receiver id stays recorded after the image arrives.
- `getSourceDrawable` (ModItemAdapter.java:309-318) is not modelled. It only picks an icon resource and throws for an unknown API source.
- Title, description and source-icon text setting, `openDetailedView` layout measurement, and the `LoadingViewHolder` are not modelled.
- ModpackAdapter.ModItemAdapter.OnBindViewHolder: its precondition admits only positions below `getItemCount`, the only positions the list widget binds.
- ModpackAdapter.ModItemAdapter.OnUpdateTaskCount: the running flag is passed to each row's `UpdateInstallButtonState`, standing for the shared `AtomicBoolean` that rows read.
- `ProfileIconCache`, `getView`, `setView`, `setViewExtra` and `getItemId` are not modelled. They choose icons and forward to `setViewProfile`, or return the position unchanged.
- Profiles.EqualsIgnoreCase folds ASCII letters only; `String.equalsIgnoreCase` folds every Unicode letter. This matters only for the two ASCII aliases it is compared with, if a non-ASCII letter folds to an ASCII one.
- Profiles.KeysOf: the order of `HashMap.keySet()` is left open. Any enumeration of the keys, each once, is allowed.
- Profiles.ProfileAdapter.constructor takes the loaded profiles as an argument. The constructor's throw when the main profile file is null is modelled only by `ReloadProfiles`.
- `LauncherProfiles.load`, file and JSON I/O are not modelled:
  - `importControlFile`, `verify` (the file's validity is the `valid` argument of `OnVerificationFinished`);
  - `Files.copy` (its failure is the `copyFails` argument);
  - the file-exists half of `isFileNameValid` (the `taken` argument).
- The display name the content resolver reports for a URI (`Tools.getFileName`) is not modelled; it is the `fileNameOfUri` argument of `OnPostResume`.
- The soft-keyboard popup posted by `onPostResume` is not modelled.
- ImportControl.ImportControlActivity.OnVerificationFinished does not tell a verification thread of an earlier intent from the latest one.
- `AsyncMinecraftDownloader.normalizeVersionId`, `getListedVersion` and the download itself are not modelled. The normalizer is a function argument, and a started download is logged by its version id.
- Toasts, dialogs, the notification manager and the permission launcher are not modelled as UI. They appear as counters and logged decisions.
- The rationale dialog's buttons are not modelled as a separate method. Its OK button is a call of `AskForNotificationPermission` without a runnable, and its Cancel button a call of `HandleNoNotificationPermission`.
- The weak reference to the success runnable is not modelled. Whether it was cleared is the `runnableAlive` argument.
- `ControlButton` drawing, property setup, `cloneButton`, `removeButton` and pass-through touch dispatch to the game surface are not modelled.
- The float bounds test of a move (ControlButton.java:121-124) is not modelled; its result is the `outOfBounds` argument.
- Key modifiers read by `getCurrentMods` are not modelled. A key event records only the key and its direction.
- Hotbar: `DropGesture` and `TapDetector` timing, `CallbackBridge.isGrabbing` and `LauncherPreferences.PREF_DISABLE_SWAP_HAND` are not modelled. They enter as the gesture log and as the `grabbing`, `hasDoubleTapped` and `swapHandDisabled` arguments.
- Hotbar.SlotOf: the touch position is an integer, and `MathUtils.map` is taken as `x * 9 / width` truncated toward zero. Float rounding and fractional positions are not modelled.
- `mcScale` and `repositionView` are not modelled. The width they compute is an argument of `OnAttachedToWindow` and `Run`.
- Hotbar.HotbarView.OnAttachedToWindow: a parent that is not a `View` is treated like no parent.
- Hotbar.HotbarView.Run: removal of the view from its parent is not modelled; the source checks `getParent()` on every call (HotbarView.java:169), while the model keeps repositioning once the view was attached.

## Findings

| source | as written | input that shows it | evidently intended | confidence | as-written member | corrected member |
|---|---|---|---|---|---|---|
| app_pojavlauncher/src/main/java/net/kdt/pojavlaunch/modloaders/modpacks/ModItemAdapter.java:362 | the page runnable checks whether the task in the field `mTaskInProgress` is cancelled, but `performSearchQuery` nulls and replaces that field on cancel, so the check never fires and a superseded query's page is applied | search q1, then search q2 while q1's first page loads; q2's page is posted, then q1's | apply a page only if its own task is still the one in progress | high, not executed | ModpackAdapter.StalePageAsWritten | ModpackAdapter.StalePageFixed |
| app_pojavlauncher/src/main/java/net/kdt/pojavlaunch/modloaders/modpacks/ModItemAdapter.java:194 | the detail worker stores its answer in the row's `mModDetail` before its runnable checks for cancellation at :203, so a fetch for a recycled row's old item overwrites the new item's detail | bind a, expand, rebind to b while a's fetch runs, expand; b's fetch posts, then a's | keep the answer in the runnable and store it only after the check | high, not executed | ModpackRows.StaleDetailAsWritten | ModpackRows.StaleDetailFixed |
| app_pojavlauncher/src/main/java/net/kdt/pojavlaunch/modloaders/modpacks/ModItemAdapter.java:203 | `cancel(true)` fails on a future that is already done, so a fetch that completed before the row was rebound still passes `isCancelled()` and clears the new item's pending fetch | bind a, expand, a's fetch completes; rebind to b and expand before the runnable runs | apply the answer only while the future is still the row's pending one | medium, not executed | ModpackRows.LateRunnableAsWritten | ModpackRows.LateRunnableFixed |
| app_pojavlauncher/src/main/java/net/kdt/pojavlaunch/modloaders/modpacks/ModItemAdapter.java:384 | `notifyItemRangeInserted(prevLength + 1, mModItems.size())` sizes the insertion by the whole new list | a later non-empty page after a non-empty list | size the insertion by the page | high, not executed | ModpackSearch.LaterPageNoticesAsWrittenOvercount | ModpackSearch.LaterPageNoticesAccount |
| app_pojavlauncher/src/main/java/net/kdt/pojavlaunch/modloaders/modpacks/ModItemAdapter.java:366-367 | the end of the list is reported as `notifyItemChanged` at the loading row, while `getItemCount` drops by one | an empty later page | report the loading row as removed | medium, not executed | ModpackSearch.LastPageNoticesAsWrittenMismatch | ModpackSearch.LastPageNoticesAccount |
| app_pojavlauncher/src/main/java/net/kdt/pojavlaunch/customcontrols/mouse/HotbarView.java:111 | the bounds check admits `x == mWidth`, which maps to slot 9, and `HOTBAR_KEYS[9]` at :125 throws | a grabbed touch at the strip's right edge | keep the right edge in the last slot | high, not executed | Hotbar.RightEdgeAsWritten | Hotbar.RightEdgeClamped |

=== FILE: control_button.dfy ===
/**
 * An on-screen control button (ControlButton): touch events press and release
 * the button's keycodes, toggle buttons flip on release, and swipeable buttons
 * release when the pointer slides off and press again when it slides back.
 * Everything the button sends out is appended to an output log.
 */
module ControlButtons {

  /** GLFW_KEY_UNKNOWN: keycodes at or above it are keyboard keys, below it special buttons. */
  const GLFW_KEY_UNKNOWN: int := 0

  /** The special button codes (ControlData, which is not part of this model). */
  const SPECIALBTN_KEYBOARD: int := -1
  const SPECIALBTN_TOGGLECTRL: int := -2
  const SPECIALBTN_MOUSEPRI: int := -3
  const SPECIALBTN_MOUSESEC: int := -4
  const SPECIALBTN_VIRTUALMOUSE: int := -5
  const SPECIALBTN_MOUSEMID: int := -6
  const SPECIALBTN_SCROLLUP: int := -7
  const SPECIALBTN_SCROLLDOWN: int := -8
  const SPECIALBTN_MENU: int := -9

  const GLFW_MOUSE_BUTTON_LEFT: int := 0
  const GLFW_MOUSE_BUTTON_RIGHT: int := 1
  const GLFW_MOUSE_BUTTON_MIDDLE: int := 2

  /** What the button sends to the game bridge, the activity and its layout. */
  datatype Output =
    | Activated(on: bool)
    | KeyPress(keycode: int, isDown: bool)
    | SetModifiers(keycode: int, isDown: bool)
    | SwitchKeyboard
    | ToggleControlVisible
    | ToggleMouse
    | MouseButton(button: int, isDown: bool)
    | Scroll(dy: int)
    | AppMenu
    | LayoutTouch

  /** The masked action of a motion event. */
  datatype Action = Move | Down | PointerDown | Up | Cancel | PointerUp | OtherAction

  /** What onTouchEvent returns: false, or whatever the text view's own handler returns. */
  datatype TouchResult = NotHandled | SuperHandled

  /**
   * sendSpecialKey: the keyboard, control-visibility and virtual-mouse
   * buttons act on press only; scrolling acts on release only; the mouse
   * buttons forward both press and release; the menu button acts on both;
   * an unknown code does nothing.
   */
  function SpecialKeyEvents(keycode: int, isDown: bool): (r: seq<Output>)
    ensures keycode == SPECIALBTN_KEYBOARD || keycode == SPECIALBTN_TOGGLECTRL || keycode == SPECIALBTN_VIRTUALMOUSE ==>
              (r != [] <==> isDown)
    ensures keycode == SPECIALBTN_SCROLLUP || keycode == SPECIALBTN_SCROLLDOWN ==>
              (r != [] <==> !isDown) && (r != [] ==> r[0].Scroll? && (r[0].dy > 0 <==> keycode == SPECIALBTN_SCROLLDOWN))
    ensures keycode == SPECIALBTN_MOUSEPRI || keycode == SPECIALBTN_MOUSESEC || keycode == SPECIALBTN_MOUSEMID ==>
              |r| == 1 && r[0].MouseButton? && r[0].isDown == isDown
              && r[0].button == (if keycode == SPECIALBTN_MOUSEPRI then GLFW_MOUSE_BUTTON_LEFT
                                 else if keycode == SPECIALBTN_MOUSEMID then GLFW_MOUSE_BUTTON_MIDDLE
                                 else GLFW_MOUSE_BUTTON_RIGHT)
    ensures keycode == SPECIALBTN_MENU ==> r == [AppMenu]
    ensures keycode < -9 ==> r == []
  {
    if keycode == SPECIALBTN_KEYBOARD then (if isDown then [SwitchKeyboard] else [])
    else if keycode == SPECIALBTN_TOGGLECTRL then (if isDown then [ToggleControlVisible] else [])
    else if keycode == SPECIALBTN_VIRTUALMOUSE then (if isDown then [ToggleMouse] else [])
    else if keycode == SPECIALBTN_MOUSEPRI then [MouseButton(GLFW_MOUSE_BUTTON_LEFT, isDown)]
    else if keycode == SPECIALBTN_MOUSEMID then [MouseButton(GLFW_MOUSE_BUTTON_MIDDLE, isDown)]
    else if keycode == SPECIALBTN_MOUSESEC then [MouseButton(GLFW_MOUSE_BUTTON_RIGHT, isDown)]
    else if keycode == SPECIALBTN_SCROLLDOWN then (if !isDown then [Scroll(1)] else [])
    else if keycode == SPECIALBTN_SCROLLUP then (if !isDown then [Scroll(-1)] else [])
    else if keycode == SPECIALBTN_MENU then [AppMenu]
    else []
  }

  /** The events of one keycode: a keyboard key and its modifier update, or the special button's events. */
  function KeyEvents(keycode: int, isDown: bool): (r: seq<Output>)
  {
    if keycode >= GLFW_KEY_UNKNOWN then [KeyPress(keycode, isDown), SetModifiers(keycode, isDown)]
    else SpecialKeyEvents(keycode, isDown)
  }

  /** The events of sendKeyPresses after its activation change, keycode by keycode in order. */
  function PressEvents(keycodes: seq<int>, isDown: bool): (r: seq<Output>)
  {
    if keycodes == [] then [] else PressEvents(keycodes[..|keycodes| - 1], isDown) + KeyEvents(keycodes[|keycodes| - 1], isDown)
  }

  /** The keys and mouse buttons an event list presses (isDown) or releases (!isDown), in order. */
  function Sent(events: seq<Output>, isDown: bool): (r: seq<int>)
  {
    if events == [] then []
    else
      var e := events[|events| - 1];
      Sent(events[..|events| - 1], isDown)
      + (if e.KeyPress? && e.isDown == isDown then [e.keycode]
         else if e.MouseButton? && e.isDown == isDown then [-1 - e.button]
         else [])
  }

  /** The events of one more keycode come after those of the keycodes before it. */
  lemma PressEventsStep(keycodes: seq<int>, i: int, isDown: bool)
    requires 0 <= i < |keycodes|
    ensures PressEvents(keycodes[..i + 1], isDown) == PressEvents(keycodes[..i], isDown) + KeyEvents(keycodes[i], isDown)
  {
    assert keycodes[..i + 1][..i] == keycodes[..i];
  }

  lemma {:induction false} SentAppend(a: seq<Output>, b: seq<Output>, isDown: bool)
    ensures Sent(a + b, isDown) == Sent(a, isDown) + Sent(b, isDown)
    decreases |b|
  {
    if b == [] {
      assert a + b == a;
    } else {
      assert (a + b)[..|a + b| - 1] == a + b[..|b| - 1];
      SentAppend(a, b[..|b| - 1], isDown);
    }
  }

  /** One keycode's release sends back what its press sent, and neither sends the other direction. */
  lemma KeyEventsMirror(k: int)
    ensures Sent(KeyEvents(k, true), true) == Sent(KeyEvents(k, false), false)
    ensures Sent(KeyEvents(k, true), false) == [] && Sent(KeyEvents(k, false), true) == []
  {
    var press, release := KeyEvents(k, true), KeyEvents(k, false);
    if k >= GLFW_KEY_UNKNOWN {
      assert press[..1] == [KeyPress(k, true)] && press[..1][..0] == [];
      assert release[..1] == [KeyPress(k, false)] && release[..1][..0] == [];
      assert Sent(press[..1], true) == [k] && Sent(press[..1], false) == [];
      assert Sent(release[..1], false) == [k] && Sent(release[..1], true) == [];
    } else {
      if press != [] {
        assert press[..0] == [];
      }
      if release != [] {
        assert release[..0] == [];
      }
    }
  }

  /**
   * Releasing a button releases exactly the keyboard keys and mouse buttons
   * that pressing it pressed, in the same order; and a press sends no
   * release, nor a release a press.
   */
  lemma {:induction false} ReleaseMirrorsPress(keycodes: seq<int>)
    ensures Sent(PressEvents(keycodes, true), true) == Sent(PressEvents(keycodes, false), false)
    ensures Sent(PressEvents(keycodes, true), false) == []
    ensures Sent(PressEvents(keycodes, false), true) == []
    decreases |keycodes|
  {
    if keycodes != [] {
      var init, k := keycodes[..|keycodes| - 1], keycodes[|keycodes| - 1];
      ReleaseMirrorsPress(init);
      KeyEventsMirror(k);
      SentAppend(PressEvents(init, true), KeyEvents(k, true), true);
      SentAppend(PressEvents(init, false), KeyEvents(k, false), false);
      SentAppend(PressEvents(init, true), KeyEvents(k, true), false);
      SentAppend(PressEvents(init, false), KeyEvents(k, false), true);
    }
  }

  class ControlButton {
    /** mProperties.keycodes, isToggle and isSwipeable. */
    const mKeycodes: seq<int>
    const mIsToggle: bool
    const mIsSwipeable: bool
    var mIsToggled: bool
    var mIsPointerOutOfBounds: bool
    /** The view's activated state (setActivated). */
    var mActivated: bool
    var mOutput: seq<Output>

    constructor (keycodes: seq<int>, isToggle: bool, isSwipeable: bool)
      ensures mKeycodes == keycodes && mIsToggle == isToggle && mIsSwipeable == isSwipeable
      ensures !mIsToggled && !mIsPointerOutOfBounds && !mActivated && mOutput == []
    {
      mKeycodes, mIsToggle, mIsSwipeable := keycodes, isToggle, isSwipeable;
      mIsToggled, mIsPointerOutOfBounds, mActivated, mOutput := false, false, false, [];
    }

    /** sendKeyPresses: activates or deactivates the view, then sends every keycode's events in order. */
    method SendKeyPresses(isDown: bool)
      modifies this`mActivated, this`mOutput
      ensures mActivated == isDown
      ensures mOutput == old(mOutput) + [Activated(isDown)] + PressEvents(mKeycodes, isDown)
    {
      mActivated := isDown;
      mOutput := mOutput + [Activated(isDown)];
      ghost var start := mOutput;
      for i := 0 to |mKeycodes|
        invariant mActivated == isDown
        invariant mOutput == start + PressEvents(mKeycodes[..i], isDown)
      {
        SendKeycode(mKeycodes[i], isDown);
        PressEventsStep(mKeycodes, i, isDown);
      }
      assert mKeycodes[..|mKeycodes|] == mKeycodes;
    }

    /** The body of sendKeyPresses' loop: a keyboard key and its modifier update, or a special button. */
    method SendKeycode(keycode: int, isDown: bool)
      modifies this`mOutput
      ensures mOutput == old(mOutput) + KeyEvents(keycode, isDown)
    {
      if keycode >= GLFW_KEY_UNKNOWN {
        mOutput := mOutput + [KeyPress(keycode, isDown)];
        mOutput := mOutput + [SetModifiers(keycode, isDown)];
      } else {
        SendSpecialKey(keycode, isDown);
      }
    }

    /** sendSpecialKey: the special button's action for a press or a release. */
    method SendSpecialKey(keycode: int, isDown: bool)
      modifies this`mOutput
      ensures mOutput == old(mOutput) + SpecialKeyEvents(keycode, isDown)
    {
      if keycode == SPECIALBTN_KEYBOARD {
        if isDown { mOutput := mOutput + [SwitchKeyboard]; }
      } else if keycode == SPECIALBTN_TOGGLECTRL {
        if isDown { mOutput := mOutput + [ToggleControlVisible]; }
      } else if keycode == SPECIALBTN_VIRTUALMOUSE {
        if isDown { mOutput := mOutput + [ToggleMouse]; }
      } else if keycode == SPECIALBTN_MOUSEPRI {
        mOutput := mOutput + [MouseButton(GLFW_MOUSE_BUTTON_LEFT, isDown)];
      } else if keycode == SPECIALBTN_MOUSEMID {
        mOutput := mOutput + [MouseButton(GLFW_MOUSE_BUTTON_MIDDLE, isDown)];
      } else if keycode == SPECIALBTN_MOUSESEC {
        mOutput := mOutput + [MouseButton(GLFW_MOUSE_BUTTON_RIGHT, isDown)];
      } else if keycode == SPECIALBTN_SCROLLDOWN {
        if !isDown { mOutput := mOutput + [Scroll(1)]; }
      } else if keycode == SPECIALBTN_SCROLLUP {
        if !isDown { mOutput := mOutput + [Scroll(-1)]; }
      } else if keycode == SPECIALBTN_MENU {
        mOutput := mOutput + [AppMenu];
      }
    }

    /** triggerToggle: a toggle button flips and sends presses for its new state; others do nothing. */
    method TriggerToggle() returns (toggled: bool)
      modifies this`mIsToggled, this`mActivated, this`mOutput
      ensures toggled == mIsToggle
      ensures mIsToggle ==> mIsToggled == !old(mIsToggled) && mActivated == mIsToggled
                            && mOutput == old(mOutput) + [Activated(mIsToggled)] + PressEvents(mKeycodes, mIsToggled)
      ensures !mIsToggle ==> mIsToggled == old(mIsToggled) && mActivated == old(mActivated) && mOutput == old(mOutput)
    {
      if mIsToggle {
        mIsToggled := !mIsToggled;
        SendKeyPresses(mIsToggled);
        return true;
      }
      return false;
    }

    /**
     * The release of a button: a toggle button flips, any other button
     * releases its keys (the `if (!triggerToggle()) sendKeyPresses(false)`
     * idiom).
     */
    method ToggleOrRelease()
      modifies this`mIsToggled, this`mActivated, this`mOutput
      ensures mIsToggle ==> mIsToggled == !old(mIsToggled) && mActivated == mIsToggled
                            && mOutput == old(mOutput) + [Activated(mIsToggled)] + PressEvents(mKeycodes, mIsToggled)
      ensures !mIsToggle ==> mIsToggled == old(mIsToggled) && !mActivated
                             && mOutput == old(mOutput) + [Activated(false)] + PressEvents(mKeycodes, false)
    {
      var toggled := TriggerToggle();
      if !toggled {
        SendKeyPresses(false);
      }
    }

    /**
     * onTouchEvent. A move that leaves the bounds releases (or toggles) a
     * swipeable button the first time and marks the pointer out; a move back
     * in presses a swipeable non-toggle button again and clears the mark. A
     * press presses non-toggle buttons. A release clears the mark, then toggles
     * or releases. Other actions are not handled and change nothing.
     * outOfBounds is the result of the bounds test on the event's position.
     */
    method OnTouchEvent(action: Action, outOfBounds: bool) returns (r: TouchResult)
      modifies this`mIsToggled, this`mIsPointerOutOfBounds, this`mActivated, this`mOutput
      ensures r == NotHandled <==> action == OtherAction
      ensures action == OtherAction ==>
                mIsToggled == old(mIsToggled) && mIsPointerOutOfBounds == old(mIsPointerOutOfBounds)
                && mActivated == old(mActivated) && mOutput == old(mOutput)
      ensures action == Move && outOfBounds ==>
                && mIsPointerOutOfBounds
                && (if mIsSwipeable && !old(mIsPointerOutOfBounds) then
                      (if mIsToggle then mIsToggled == !old(mIsToggled)
                                         && mOutput == old(mOutput) + [Activated(mIsToggled)]
                                                       + PressEvents(mKeycodes, mIsToggled) + [LayoutTouch]
                       else mIsToggled == old(mIsToggled)
                            && mOutput == old(mOutput) + [Activated(false)] + PressEvents(mKeycodes, false) + [LayoutTouch])
                    else mIsToggled == old(mIsToggled) && mOutput == old(mOutput) + [LayoutTouch])
      ensures action == Move && !outOfBounds ==>
                && !mIsPointerOutOfBounds && mIsToggled == old(mIsToggled)
                && mOutput == old(mOutput)
                              + (if old(mIsPointerOutOfBounds) then [LayoutTouch] else [])
                              + (if old(mIsPointerOutOfBounds) && mIsSwipeable && !mIsToggle then
                                   [Activated(true)] + PressEvents(mKeycodes, true) else [])
      ensures action in [Down, PointerDown] ==>
                && mIsPointerOutOfBounds == old(mIsPointerOutOfBounds) && mIsToggled == old(mIsToggled)
                && mOutput == old(mOutput) + (if mIsToggle then [] else [Activated(true)] + PressEvents(mKeycodes, true))
      ensures action in [Up, Cancel, PointerUp] ==>
                && !mIsPointerOutOfBounds
                && var touched := old(mOutput) + (if old(mIsPointerOutOfBounds) then [LayoutTouch] else []);
                   if mIsToggle then mIsToggled == !old(mIsToggled)
                                     && mOutput == touched + [Activated(mIsToggled)] + PressEvents(mKeycodes, mIsToggled)
                   else mIsToggled == old(mIsToggled)
                        && mOutput == touched + [Activated(false)] + PressEvents(mKeycodes, false)
    {
      match action {
        case Move =>
          if outOfBounds {
            if mIsSwipeable && !mIsPointerOutOfBounds {
              ToggleOrRelease();
            }
            mIsPointerOutOfBounds := true;
            mOutput := mOutput + [LayoutTouch];
            return SuperHandled;
          }
          if mIsPointerOutOfBounds {
            mOutput := mOutput + [LayoutTouch];
            if mIsSwipeable && !mIsToggle {
              SendKeyPresses(true);
            }
          }
          mIsPointerOutOfBounds := false;
        case Down =>
          if !mIsToggle {
            SendKeyPresses(true);
          }
        case PointerDown =>
          if !mIsToggle {
            SendKeyPresses(true);
          }
        case Up =>
          Release();
        case Cancel =>
          Release();
        case PointerUp =>
          Release();
        case OtherAction =>
          return NotHandled;
      }
      return SuperHandled;
    }

    /** The UP, CANCEL and POINTER_UP branch of onTouchEvent. */
    method Release()
      modifies this`mIsToggled, this`mIsPointerOutOfBounds, this`mActivated, this`mOutput
      ensures !mIsPointerOutOfBounds
      ensures var touched := old(mOutput) + (if old(mIsPointerOutOfBounds) then [LayoutTouch] else []);
              if mIsToggle then mIsToggled == !old(mIsToggled)
                                && mOutput == touched + [Activated(mIsToggled)] + PressEvents(mKeycodes, mIsToggled)
              else mIsToggled == old(mIsToggled)
                   && mOutput == touched + [Activated(false)] + PressEvents(mKeycodes, false)
    {
      if mIsPointerOutOfBounds {
        mOutput := mOutput + [LayoutTouch];
      }
      mIsPointerOutOfBounds := false;
      ToggleOrRelease();
    }
  }

  /**
   * A swipeable key button pressed, slid off and slid back: the key is
   * released when the pointer leaves and pressed again when it returns.
   */
  method SwipeOffAndBack(k: int) returns (log: seq<Output>, outOfBounds: bool)
    requires k >= GLFW_KEY_UNKNOWN
    ensures log == [Activated(true), KeyPress(k, true), SetModifiers(k, true),
                    Activated(false), KeyPress(k, false), SetModifiers(k, false), LayoutTouch,
                    LayoutTouch, Activated(true), KeyPress(k, true), SetModifiers(k, true)]
    ensures !outOfBounds
  {
    var press := [Activated(true), KeyPress(k, true), SetModifiers(k, true)];
    var release := [Activated(false), KeyPress(k, false), SetModifiers(k, false)];
    assert PressEvents([k], true) == press[1..];
    assert PressEvents([k], false) == release[1..];
    var b := new ControlButton([k], false, true);
    var r := b.OnTouchEvent(Down, false);
    assert b.mOutput == press;
    r := b.OnTouchEvent(Move, true);
    assert b.mOutput == press + release + [LayoutTouch];
    r := b.OnTouchEvent(Move, false);
    log, outOfBounds := b.mOutput, b.mIsPointerOutOfBounds;
  }

  /**
   * A toggle key button tapped twice: nothing on the presses, the key goes
   * down on the first release and up on the second.
   */
  method ToggleTwice(k: int) returns (log: seq<Output>, toggledAfter: bool)
    requires k >= GLFW_KEY_UNKNOWN
    ensures log == [Activated(true), KeyPress(k, true), SetModifiers(k, true),
                    Activated(false), KeyPress(k, false), SetModifiers(k, false)]
    ensures !toggledAfter
  {
    var b := new ControlButton([k], true, false);
    var r := b.OnTouchEvent(Down, false);
    r := b.OnTouchEvent(Up, false);
    r := b.OnTouchEvent(Down, false);
    r := b.OnTouchEvent(Up, false);
    assert PressEvents([k], true) == [KeyPress(k, true), SetModifiers(k, true)];
    assert PressEvents([k], false) == [KeyPress(k, false), SetModifiers(k, false)];
    log := b.mOutput;
    toggledAfter := b.mIsToggled;
  }
}

=== FILE: hotbar_view.dfy ===
/**
 * The touch strip over the game's hotbar (HotbarView): a touch selects the
 * slot under the finger by sending that slot's number key, a double tap on the
 * selected slot swaps hands, and touches feed a drop gesture that is cancelled
 * whenever the slot changes or the finger leaves the strip. The view is
 * resized when the game's GUI scale or the parent's layout changes.
 */
module Hotbar {
  import opened Wrappers

  /** GLFW_KEY_1 .. GLFW_KEY_9 and GLFW_KEY_F (LwjglGlfwKeycode, which is not part of this model). */
  const HOTBAR_KEYS: seq<int> := [49, 50, 51, 52, 53, 54, 55, 56, 57]
  const GLFW_KEY_F: int := 70

  /** MotionEvent action codes. */
  const ACTION_DOWN: int := 0
  const ACTION_UP: int := 1
  const ACTION_MOVE: int := 2
  const ACTION_CANCEL: int := 3

  /** Calls made on the drop gesture, whose timing is not modelled. */
  datatype GestureCall = DropSubmit | DropCancel

  /** What onTouchEvent ends with: false, true, or the exception of the hotbar key lookup. */
  datatype TouchOutcome = NotHandled | Handled | IndexOutOfBounds

  /** isLastEventInGesture: the finger is lifted or the gesture was cancelled. */
  predicate IsLastEventInGesture(actionMasked: int)
    ensures actionMasked == ACTION_DOWN || actionMasked == ACTION_MOVE ==> !IsLastEventInGesture(actionMasked)
    ensures actionMasked == ACTION_UP || actionMasked == ACTION_CANCEL ==> IsLastEventInGesture(actionMasked)
  {
    actionMasked == ACTION_UP || actionMasked == ACTION_CANCEL
  }

  /** The drop-gesture call made for every grabbed touch, before the slot is looked at. */
  function FirstGestureCall(actionMasked: int): (r: GestureCall)
  {
    if IsLastEventInGesture(actionMasked) then DropCancel else DropSubmit
  }

  lemma FactorBelow(a: int, b: int, w: int)
    requires w > 0 && a * w < b * w
    ensures a < b
  {
    if a >= b {
      MulMonotone(b, a, w);
    }
  }

  lemma MulMonotone(a: int, b: int, w: int)
    requires w > 0 && a <= b
    ensures a * w <= b * w
  {
  }

  lemma ScaledBelow(x: int, width: int)
    requires 0 <= x < width
    ensures x * 9 / width < 9
  {
    var q := x * 9 / width;
    assert q * width <= x * 9 < 9 * width;
    FactorBelow(q, 9, width);
  }

  /**
   * The slot under x, as written: MathUtils.map(x, 0, width, 0, 9) truncated
   * to an int. A zero width maps the only admitted position, 0, to slot 0
   * (a NaN cast to int). The bounds check admits x == width, which maps to
   * 9, one past the last slot.
   */
  function SlotOf(x: int, width: int): (r: int)
    requires 0 <= x <= width
    ensures 0 <= r <= 9
    ensures r == 9 <==> x == width && width > 0
  {
    if width == 0 then 0
    else if x == width then
      assert x * 9 / width == 9;
      x * 9 / width
    else
      ScaledBelow(x, width);
      x * 9 / width
  }

  /** The slot under x with the right edge clamped into the last slot. */
  function SlotOfClamped(x: int, width: int): (r: int)
    requires 0 <= x <= width
    ensures 0 <= r < |HOTBAR_KEYS|
    ensures x < width ==> r == SlotOf(x, width)
    ensures x == width && width > 0 ==> r == |HOTBAR_KEYS| - 1
  {
    var slot := SlotOf(x, width);
    if slot >= |HOTBAR_KEYS| then |HOTBAR_KEYS| - 1 else slot
  }

  /** Slots run left to right: a position further right never selects an earlier slot. */
  lemma SlotMonotone(x1: int, x2: int, width: int)
    requires 0 <= x1 <= x2 <= width
    ensures SlotOf(x1, width) <= SlotOf(x2, width)
  {
    if width > 0 {
      var q1, q2 := x1 * 9 / width, x2 * 9 / width;
      assert q1 * width <= x1 * 9 <= x2 * 9 < (q2 + 1) * width;
      FactorBelow(q1, q2 + 1, width);
    }
  }

  class HotbarView {
    var mWidth: int
    var mLastIndex: int
    var mGuiScale: int
    /** Set once the view was attached to a parent View; nothing clears it. */
    var mAttached: bool
    /** The parent view the layout listener was added to, by id. */
    var mParentView: Option<nat>
    var mGestureLog: seq<GestureCall>
    var mKeyLog: seq<int>
    /** Repositions done (by run) and posted (by onLayoutChange). */
    var mRepositions: nat
    var mPostedRepositions: nat

    ghost predicate Valid()
      reads this
    {
      mWidth >= 0 && 0 <= mLastIndex < |HOTBAR_KEYS|
    }

    constructor ()
      ensures Valid()
      ensures mWidth == 0 && mLastIndex == 0 && mGuiScale == 0 && !mAttached && mParentView == None
      ensures mGestureLog == [] && mKeyLog == [] && mRepositions == 0 && mPostedRepositions == 0
    {
      mWidth, mLastIndex, mGuiScale, mAttached, mParentView := 0, 0, 0, false, None;
      mGestureLog, mKeyLog, mRepositions, mPostedRepositions := [], [], 0, 0;
    }

    /**
     * onAttachedToWindow: without a parent view nothing happens; with one,
     * the view listens to the parent's layout, takes the game's scale and
     * repositions (width is what repositionView computes from that scale).
     */
    method OnAttachedToWindow(parent: Option<nat>, scale: int, width: nat)
      modifies this`mAttached, this`mParentView, this`mGuiScale, this`mWidth, this`mRepositions
      ensures parent.None? ==>
                && mAttached == old(mAttached) && mParentView == old(mParentView) && mGuiScale == old(mGuiScale)
                && mWidth == old(mWidth) && mRepositions == old(mRepositions)
      ensures parent.Some? ==>
                && mAttached && mParentView == parent && mGuiScale == scale && mWidth == width
                && mRepositions == old(mRepositions) + 1
    {
      if parent.None? {
        return;
      }
      mAttached := true;
      mParentView := parent;
      mGuiScale := scale;
      mWidth := width;
      mRepositions := mRepositions + 1;
    }

    /**
     * onTouchEvent, as written. Not grabbing: not handled. Otherwise the drop
     * gesture is submitted, or cancelled on the last event; outside the strip
     * it is cancelled and nothing else happens; on the selected slot a double
     * tap sends F unless swapping hands is disabled; on a new slot the slot is
     * recorded, then its key looked up (which throws for slot 9), sent, and
     * the drop gesture cancelled and resubmitted unless this is the last event.
     */
    method OnTouchEvent(grabbing: bool, hasDoubleTapped: bool, actionMasked: int, x: int, swapHandDisabled: bool)
      returns (r: TouchOutcome)
      requires mWidth >= 0
      modifies this`mLastIndex, this`mGestureLog, this`mKeyLog
      ensures !grabbing ==>
                r == NotHandled && mLastIndex == old(mLastIndex) && mGestureLog == old(mGestureLog)
                && mKeyLog == old(mKeyLog)
      ensures grabbing && (x < 0 || x > mWidth) ==>
                r == Handled && mLastIndex == old(mLastIndex) && mKeyLog == old(mKeyLog)
                && mGestureLog == old(mGestureLog) + [FirstGestureCall(actionMasked), DropCancel]
      ensures grabbing && 0 <= x <= mWidth && SlotOf(x, mWidth) == old(mLastIndex) ==>
                r == Handled && mLastIndex == old(mLastIndex)
                && mGestureLog == old(mGestureLog) + [FirstGestureCall(actionMasked)]
                && mKeyLog == old(mKeyLog) + (if hasDoubleTapped && !swapHandDisabled then [GLFW_KEY_F] else [])
      ensures grabbing && 0 <= x <= mWidth && SlotOf(x, mWidth) != old(mLastIndex) ==>
                && mLastIndex == SlotOf(x, mWidth)
                && (r == IndexOutOfBounds <==> mLastIndex >= |HOTBAR_KEYS|)
                && (r == IndexOutOfBounds ==>
                      mKeyLog == old(mKeyLog) && mGestureLog == old(mGestureLog) + [FirstGestureCall(actionMasked)])
                && (r != IndexOutOfBounds ==>
                      && r == Handled
                      && mKeyLog == old(mKeyLog) + [HOTBAR_KEYS[mLastIndex]]
                      && mGestureLog == old(mGestureLog) + [FirstGestureCall(actionMasked), DropCancel]
                                        + (if IsLastEventInGesture(actionMasked) then [] else [DropSubmit]))
    {
      if !grabbing {
        return NotHandled;
      }
      if IsLastEventInGesture(actionMasked) {
        mGestureLog := mGestureLog + [DropCancel];
      } else {
        mGestureLog := mGestureLog + [DropSubmit];
      }
      if x < 0 || x > mWidth {
        mGestureLog := mGestureLog + [DropCancel];
        return Handled;
      }
      var hotbarIndex := SlotOf(x, mWidth);
      if hotbarIndex == mLastIndex {
        if hasDoubleTapped && !swapHandDisabled {
          mKeyLog := mKeyLog + [GLFW_KEY_F];
        }
        return Handled;
      }
      mLastIndex := hotbarIndex;
      if hotbarIndex >= |HOTBAR_KEYS| {
        return IndexOutOfBounds;
      }
      mKeyLog := mKeyLog + [HOTBAR_KEYS[hotbarIndex]];
      mGestureLog := mGestureLog + [DropCancel];
      if !IsLastEventInGesture(actionMasked) {
        mGestureLog := mGestureLog + [DropSubmit];
      }
      return Handled;
    }

    /**
     * onTouchEvent with the right edge clamped into the last slot: the
     * recorded slot always names a hotbar key, and a touch on a new slot sends
     * exactly that slot's key.
     */
    method OnTouchEventClamped(grabbing: bool, hasDoubleTapped: bool, actionMasked: int, x: int,
                               swapHandDisabled: bool)
      returns (r: TouchOutcome)
      requires Valid()
      modifies this`mLastIndex, this`mGestureLog, this`mKeyLog
      ensures Valid() && r != IndexOutOfBounds
      ensures r == NotHandled <==> !grabbing
      ensures !grabbing || x < 0 || x > mWidth ==> mLastIndex == old(mLastIndex) && mKeyLog == old(mKeyLog)
      ensures grabbing && 0 <= x <= mWidth ==>
                && mLastIndex == SlotOfClamped(x, mWidth)
                && mKeyLog == old(mKeyLog)
                              + (if mLastIndex != old(mLastIndex) then [HOTBAR_KEYS[mLastIndex]]
                                 else if hasDoubleTapped && !swapHandDisabled then [GLFW_KEY_F] else [])
    {
      if !grabbing {
        return NotHandled;
      }
      if IsLastEventInGesture(actionMasked) {
        mGestureLog := mGestureLog + [DropCancel];
      } else {
        mGestureLog := mGestureLog + [DropSubmit];
      }
      if x < 0 || x > mWidth {
        mGestureLog := mGestureLog + [DropCancel];
        return Handled;
      }
      var hotbarIndex := SlotOfClamped(x, mWidth);
      if hotbarIndex == mLastIndex {
        if hasDoubleTapped && !swapHandDisabled {
          mKeyLog := mKeyLog + [GLFW_KEY_F];
        }
        return Handled;
      }
      mLastIndex := hotbarIndex;
      mKeyLog := mKeyLog + [HOTBAR_KEYS[hotbarIndex]];
      mGestureLog := mGestureLog + [DropCancel];
      if !IsLastEventInGesture(actionMasked) {
        mGestureLog := mGestureLog + [DropSubmit];
      }
      return Handled;
    }

    /**
     * run (posted when a game option changes): only while attached and when
     * the game's scale differs from the recorded one, the scale is recorded
     * and the view repositioned (width is what repositionView computes).
     */
    method Run(scale: int, width: nat)
      modifies this`mGuiScale, this`mWidth, this`mRepositions
      ensures var changes := mAttached && scale != old(mGuiScale);
              && (changes ==> mGuiScale == scale && mWidth == width && mRepositions == old(mRepositions) + 1)
              && (!changes ==> mGuiScale == old(mGuiScale) && mWidth == old(mWidth) && mRepositions == old(mRepositions))
    {
      if !mAttached {
        return;
      }
      if scale == mGuiScale {
        return;
      }
      mGuiScale := scale;
      mWidth := width;
      mRepositions := mRepositions + 1;
    }

    /**
     * onLayoutChange: a reposition is posted only for the parent's layout and
     * only when one of its edges moved.
     */
    method OnLayoutChange(v: nat, left: int, top: int, right: int, bottom: int,
                          oldLeft: int, oldTop: int, oldRight: int, oldBottom: int)
      modifies this`mPostedRepositions
      ensures mPostedRepositions == old(mPostedRepositions)
                + (if mParentView == Some(v) && (left, top, right, bottom) != (oldLeft, oldTop, oldRight, oldBottom)
                   then 1 else 0)
    {
      if mParentView == Some(v) && (left != oldLeft || right != oldRight || top != oldTop || bottom != oldBottom) {
        mPostedRepositions := mPostedRepositions + 1;
      }
    }
  }

  /**
   * A strip of positive width touched at its right edge, as written: slot 9
   * is recorded and the key lookup throws, so no key is sent.
   */
  method RightEdgeAsWritten(width: nat) returns (first: TouchOutcome, index: int, keys: seq<int>)
    requires width > 0
    ensures first == IndexOutOfBounds && index == 9 && keys == []
  {
    var h := new HotbarView();
    h.OnAttachedToWindow(Some(1), 2, width);
    first := h.OnTouchEvent(true, false, ACTION_DOWN, width, false);
    index, keys := h.mLastIndex, h.mKeyLog;
  }

  /** The same touch with the edge clamped: the last slot is selected and its key sent. */
  method RightEdgeClamped(width: nat) returns (first: TouchOutcome, index: int, keys: seq<int>)
    requires width > 0
    ensures first == Handled && index == 8 && keys == [57]
  {
    var h := new HotbarView();
    h.OnAttachedToWindow(Some(1), 2, width);
    first := h.OnTouchEventClamped(true, false, ACTION_DOWN, width, false);
    index, keys := h.mLastIndex, h.mKeyLog;
  }
}

=== FILE: import_control.dfy ===
/**
 * The control-layout import screen (ImportControlActivity): the file name
 * offered to the user is cleaned by trimFileName, a name is accepted only if
 * it is non-empty once cleaned and not already taken, and the import is
 * allowed only after the copied file was verified. Strings are sequences of
 * Unicode code points.
 */
module ImportControl {
  import opened Wrappers

  // ---------------------------------------------------------------------
  // trimFileName, one whole-string rewrite at a time
  // ---------------------------------------------------------------------

  /** pat occurs in s starting at i. */
  predicate OccursAt(s: string, pat: string, i: int)
  {
    0 <= i && i + |pat| <= |s| && s[i..i + |pat|] == pat
  }

  /**
   * String.replace(pat, ""): every occurrence of pat removed, matched left
   * to right without overlap.
   */
  function RemoveAll(s: string, pat: string): (r: string)
    requires pat != []
    ensures |r| <= |s|
    decreases |s|
  {
    if |s| < |pat| then s
    else if s[..|pat|] == pat then RemoveAll(s[|pat|..], pat)
    else [s[0]] + RemoveAll(s[1..], pat)
  }

  /** The characters the regular expression '.' does not match (no DOTALL flag). */
  predicate IsLineTerminator(c: char)
  {
    c == '\n' || c == '\r' || c == '\U{85}' || c == '\U{2028}' || c == '\U{2029}'
  }

  /** A match of the regular expression "%.." starts at the front of s. */
  predicate PercentEscapeAtFront(s: string)
  {
    |s| >= 3 && s[0] == '%' && !IsLineTerminator(s[1]) && !IsLineTerminator(s[2])
  }

  /** replaceAll("%..", "/"): each match, found left to right, becomes one slash. */
  function ReplacePercentEscapes(s: string): (r: string)
    ensures |r| <= |s|
    ensures '%' !in s ==> r == s
  {
    if s == [] then []
    else if PercentEscapeAtFront(s) then "/" + ReplacePercentEscapes(s[3..])
    else [s[0]] + ReplacePercentEscapes(s[1..])
  }

  /** String.replace(c, ""): every c removed, the other characters kept in order. */
  function RemoveChar(s: string, c: char): (r: string)
    ensures c !in r
    ensures |r| <= |s|
    ensures c !in s ==> r == s
  {
    if s == [] then []
    else (if s[0] == c then [] else [s[0]]) + RemoveChar(s[1..], c)
  }

  /** Removing characters never brings in one that was absent. */
  lemma {:induction false} RemoveCharKeepsAbsent(s: string, c: char, absent: char)
    requires absent !in s
    ensures absent !in RemoveChar(s, c)
  {
    if s != [] {
      RemoveCharKeepsAbsent(s[1..], c, absent);
    }
  }

  /** A character absent from s is absent from every slice of it. */
  lemma SliceKeepsAbsent(s: string, a: int, b: int, absent: char)
    requires 0 <= a <= b <= |s| && absent !in s
    ensures absent !in s[a..b]
  {
  }

  /** Every character of s is at or below the space: what String.trim removes. */
  predicate Blank(s: string)
  {
    forall k :: 0 <= k < |s| ==> s[k] <= ' '
  }

  /** The number of leading characters at or below the space. */
  function LeadingBlanks(s: string): (n: nat)
    ensures n <= |s|
  {
    if s != [] && s[0] <= ' ' then 1 + LeadingBlanks(s[1..]) else 0
  }

  /** The number of trailing characters at or below the space. */
  function TrailingBlanks(s: string): (n: nat)
    ensures n <= |s|
  {
    if s != [] && s[|s| - 1] <= ' ' then 1 + TrailingBlanks(s[..|s| - 1]) else 0
  }

  /** The leading blanks are blank, and the character after them is not. */
  lemma {:induction false} LeadingBlanksShape(s: string)
    ensures Blank(s[..LeadingBlanks(s)])
    ensures LeadingBlanks(s) < |s| ==> s[LeadingBlanks(s)] > ' '
  {
    if s != [] && s[0] <= ' ' {
      LeadingBlanksShape(s[1..]);
      assert s[..LeadingBlanks(s)] == [s[0]] + s[1..][..LeadingBlanks(s[1..])];
    }
  }

  /** The trailing blanks are blank, and the character before them is not. */
  lemma {:induction false} TrailingBlanksShape(s: string)
    ensures Blank(s[|s| - TrailingBlanks(s)..])
    ensures TrailingBlanks(s) < |s| ==> s[|s| - TrailingBlanks(s) - 1] > ' '
  {
    if s != [] && s[|s| - 1] <= ' ' {
      var t := s[..|s| - 1];
      TrailingBlanksShape(t);
      assert s[|s| - TrailingBlanks(s)..] == t[|t| - TrailingBlanks(t)..] + [s[|s| - 1]];
    }
  }

  /** String.trim: the leading and then the trailing blanks removed. */
  function Trim(s: string): (r: string)
    ensures |r| <= |s|
  {
    var t := s[LeadingBlanks(s)..];
    t[..|t| - TrailingBlanks(t)]
  }

  /**
   * Trim removes only blanks, from the two ends, and keeps the rest in place;
   * what it keeps starts and ends with a character above the space.
   */
  lemma TrimShape(s: string)
    ensures var a := LeadingBlanks(s);
            var r := Trim(s);
            && a + |r| <= |s| && r == s[a..a + |r|]
            && Blank(s[..a]) && Blank(s[a + |r|..])
            && (r != [] ==> r[0] > ' ' && r[|r| - 1] > ' ')
  {
    var a := LeadingBlanks(s);
    var t := s[a..];
    LeadingBlanksShape(s);
    TrailingBlanksShape(t);
    var r := Trim(s);
    assert r == s[a..a + |r|];
    assert s[a + |r|..] == t[|t| - TrailingBlanks(t)..];
    if r != [] {
      assert r[0] == t[0] == s[a];
    }
  }

  /** Trimming keeps a string that starts and ends with a character above the space. */
  lemma TrimKeepsTrimmed(s: string)
    requires s != [] && s[0] > ' ' && s[|s| - 1] > ' '
    ensures Trim(s) == s
  {
  }

  /**
   * trimFileName: ".json" removed, each "%" with the two characters after it
   * turned into a slash, every slash and backslash removed, and the ends
   * trimmed. The result has no slash or backslash, no whitespace or control
   * character at either end, and is never longer than the input.
   */
  function TrimFileName(fileName: string): (r: string)
    ensures '/' !in r && '\\' !in r
    ensures r != [] ==> r[0] > ' ' && r[|r| - 1] > ' '
    ensures |r| <= |fileName|
  {
    var noSlash := RemoveChar(ReplacePercentEscapes(RemoveAll(fileName, ".json")), '/');
    var noBackslash := RemoveChar(noSlash, '\\');
    RemoveCharKeepsAbsent(noSlash, '\\', '/');
    var r := Trim(noBackslash);
    TrimShape(noBackslash);
    var start := LeadingBlanks(noBackslash);
    SliceKeepsAbsent(noBackslash, start, start + |r|, '/');
    SliceKeepsAbsent(noBackslash, start, start + |r|, '\\');
    r
  }

  /** Without an occurrence of pat, removing it changes nothing. */
  lemma {:induction false} RemoveAllAbsent(s: string, pat: string)
    requires pat != []
    requires forall i :: 0 <= i ==> !OccursAt(s, pat, i)
    ensures RemoveAll(s, pat) == s
    decreases |s|
  {
    if |s| >= |pat| {
      assert !OccursAt(s, pat, 0);
      forall i | 0 <= i
        ensures !OccursAt(s[1..], pat, i)
      {
        assert !OccursAt(s, pat, i + 1);
        if i + |pat| <= |s[1..]| {
          assert s[1..][i..i + |pat|] == s[i + 1..i + 1 + |pat|];
        }
      }
      RemoveAllAbsent(s[1..], pat);
      assert [s[0]] + s[1..] == s;
    }
  }

  /**
   * trimFileName leaves alone a name that holds no ".json", no "%", no slash
   * or backslash, and starts and ends with a printable character.
   */
  lemma KeepsPlainNames(fileName: string)
    requires forall i :: 0 <= i ==> !OccursAt(fileName, ".json", i)
    requires '%' !in fileName && '/' !in fileName && '\\' !in fileName
    requires fileName != [] ==> fileName[0] > ' ' && fileName[|fileName| - 1] > ' '
    ensures TrimFileName(fileName) == fileName
  {
    RemoveAllAbsent(fileName, ".json");
    if fileName != [] {
      TrimKeepsTrimmed(fileName);
    }
  }

  /** Removing ".json" from ".js.jsonon" joins its pieces into a new ".json". */
  lemma RemoveJsonJoins()
    ensures RemoveAll(".js.jsonon", ".json") == ".json"
  {
    var s := ".js.jsonon";
    assert RemoveAll(s[3..], ".json") == "on" by {
      assert s[3..][..5] == ".json";
      assert s[3..][5..] == "on";
    }
    assert RemoveAll(s[2..], ".json") == "son" by {
      assert s[2..][..5][0] != '.';
      assert s[2..][1..] == s[3..];
    }
    assert RemoveAll(s[1..], ".json") == "json" by {
      assert s[1..][..5][0] != '.';
      assert s[1..][1..] == s[2..];
    }
    assert s[..5][3] != 'o';
  }

  /** ".js.jsonon" cleans to ".json". */
  lemma CleaningJoinsJson()
    ensures TrimFileName(".js.jsonon") == ".json"
  {
    RemoveJsonJoins();
    var once := ".json";
    assert '%' !in once && '/' !in once && '\\' !in once;
    assert ReplacePercentEscapes(once) == once;
    assert RemoveChar(RemoveChar(once, '/'), '\\') == once;
    TrimKeepsTrimmed(once);
  }

  /** ".json" cleans to the empty name. */
  lemma CleaningRemovesJson()
    ensures TrimFileName(".json") == ""
  {
    var once := ".json";
    assert RemoveAll(once, ".json") == "" by {
      assert once[..5] == ".json";
      assert once[5..] == "";
    }
  }

  /**
   * Cleaning is not idempotent: removing ".json" can join the pieces of a
   * new ".json", which the second cleaning removes.
   */
  lemma TrimFileNameNotIdempotent()
    ensures TrimFileName(".js.jsonon") == ".json"
    ensures TrimFileName(TrimFileName(".js.jsonon")) == ""
  {
    CleaningJoinsJson();
    CleaningRemovesJson();
  }

  /**
   * The emptiness part of isFileNameValid: the name is cleaned again and
   * must be non-empty; taken says whether a regular file of that name
   * already exists among the control layouts.
   */
  predicate IsFileNameValid(fileName: string, taken: bool)
    ensures taken ==> !IsFileNameValid(fileName, taken)
    ensures IsFileNameValid(fileName, taken) ==>
              var name := TrimFileName(fileName);
              name != [] && name[0] > ' ' && '/' !in name && '\\' !in name
  {
    TrimFileName(fileName) != [] && !taken
  }

  // ---------------------------------------------------------------------
  // The activity's flags
  // ---------------------------------------------------------------------

  type Uri = string

  /**
   * The intent's data URI and its clip items (clip data may be null); each
   * clip item's URI may be null, as for an item that holds only text.
   */
  datatype Intent = Intent(data: Option<Uri>, clipItems: Option<seq<Option<Uri>>>)

  /** What startImport ends with. */
  datatype ImportOutcome =
    | InvalidName
    | StillVerifying
    | Copied(name: string)
    | CopyFailed(name: string)
    | NothingToCopy

  /**
   * The URI getUriData picks: the intent's data, else the first clip item's
   * URI (null for an item without one), else null.
   */
  function UriOf(intent: Intent): (r: Option<Uri>)
    ensures intent.data.Some? ==> r == intent.data
    ensures intent.data.None? && intent.clipItems.Some? && intent.clipItems.value != [] ==>
              r == intent.clipItems.value[0]
    ensures r.None? <==> intent.data.None? && (intent.clipItems.None? || intent.clipItems.value == []
                                               || intent.clipItems.value[0].None?)
    ensures r.Some? ==> r == intent.data || (intent.clipItems.Some? && r in intent.clipItems.value)
  {
    if intent.data.Some? then intent.data
    else if intent.clipItems.Some? && |intent.clipItems.value| > 0 then intent.clipItems.value[0]
    else None
  }

  class ImportControlActivity {
    var mIntent: Intent
    var mUriData: Option<Uri>
    var mHasIntentChanged: bool
    var mIsFileVerified: bool
    var mEditText: string
    /** Verification threads started, and whether finishAndRemoveTask was called. */
    var mVerificationsStarted: nat
    var mFinished: bool

    constructor (intent: Intent)
      ensures mIntent == intent && mUriData == None && mHasIntentChanged && !mIsFileVerified
      ensures mEditText == [] && mVerificationsStarted == 0 && !mFinished
    {
      mIntent, mUriData, mHasIntentChanged, mIsFileVerified := intent, None, true, false;
      mEditText, mVerificationsStarted, mFinished := [], 0, false;
    }

    /** onNewIntent: a non-null intent replaces the current one; either way the intent counts as changed. */
    method OnNewIntent(intent: Option<Intent>)
      modifies this`mIntent, this`mHasIntentChanged
      ensures mHasIntentChanged
      ensures mIntent == if intent.Some? then intent.value else old(mIntent)
    {
      if intent.Some? {
        mIntent := intent.value;
      }
      mHasIntentChanged := true;
    }

    /** getUriData: the intent's data, else the first clip item's URI, else null. */
    method GetUriData()
      modifies this`mUriData
      ensures mUriData == UriOf(mIntent)
    {
      mUriData := mIntent.data;
      if mUriData.Some? {
        return;
      }
      if mIntent.clipItems.Some? && |mIntent.clipItems.value| > 0 {
        mUriData := mIntent.clipItems.value[0];
      }
    }

    /**
     * onPostResume: nothing unless the intent changed. Then the file counts as
     * unverified; without a URI the screen finishes with the intent still
     * marked changed; with one, the cleaned display name (fileNameOfUri, as
     * the content resolver reports it) fills the editor, the change is
     * consumed and a verification starts.
     */
    method OnPostResume(fileNameOfUri: string)
      modifies this
      ensures mIntent == old(mIntent)
      ensures !old(mHasIntentChanged) ==>
                && mUriData == old(mUriData) && mIsFileVerified == old(mIsFileVerified) && !mHasIntentChanged
                && mEditText == old(mEditText) && mVerificationsStarted == old(mVerificationsStarted)
                && mFinished == old(mFinished)
      ensures old(mHasIntentChanged) ==>
                && !mIsFileVerified && mUriData == UriOf(mIntent)
                && (mUriData.None? ==>
                      mFinished && mHasIntentChanged && mEditText == old(mEditText)
                      && mVerificationsStarted == old(mVerificationsStarted))
                && (mUriData.Some? ==>
                      !mHasIntentChanged && mEditText == TrimFileName(fileNameOfUri)
                      && mVerificationsStarted == old(mVerificationsStarted) + 1 && mFinished == old(mFinished))
    {
      if !mHasIntentChanged {
        return;
      }
      mIsFileVerified := false;
      GetUriData();
      if mUriData.None? {
        mFinished := true;
        return;
      }
      mEditText := TrimFileName(fileNameOfUri);
      mHasIntentChanged := false;
      mVerificationsStarted := mVerificationsStarted + 1;
    }

    /** The user edits the proposed name. */
    method EditName(text: string)
      modifies this`mEditText
      ensures mEditText == text
    {
      mEditText := text;
    }

    /**
     * The end of the verification thread (the import and the layout check
     * are not part of this model): a valid file is marked verified, an
     * invalid one finishes the screen.
     */
    method OnVerificationFinished(valid: bool)
      requires mVerificationsStarted > 0
      modifies this`mIsFileVerified, this`mFinished
      ensures valid ==> mIsFileVerified && mFinished == old(mFinished)
      ensures !valid ==> mFinished && mIsFileVerified == old(mIsFileVerified)
    {
      if valid {
        mIsFileVerified := true;
      } else {
        mFinished := true;
      }
    }

    /**
     * startImport: the editor's text is cleaned; the name check comes first,
     * then the verified flag, and only when both pass is the temporary file
     * (if it exists) copied under the cleaned name and the screen finished.
     * The name check cleans the name a second time, so it may judge a
     * different name than the one written.
     */
    method StartImport(taken: bool, importFileExists: bool, copyFails: bool) returns (outcome: ImportOutcome)
      modifies this`mFinished
      ensures var fileName := TrimFileName(mEditText);
              && (!IsFileNameValid(fileName, taken) ==> outcome == InvalidName && mFinished == old(mFinished))
              && (IsFileNameValid(fileName, taken) && !mIsFileVerified ==>
                    outcome == StillVerifying && mFinished == old(mFinished))
              && (IsFileNameValid(fileName, taken) && mIsFileVerified ==>
                    && mFinished
                    && outcome == (if !importFileExists then NothingToCopy
                                   else if copyFails then CopyFailed(fileName) else Copied(fileName)))
      ensures outcome.Copied? || outcome.CopyFailed? ==>
                mIsFileVerified && outcome.name == TrimFileName(mEditText) && outcome.name != []
    {
      var fileName := TrimFileName(mEditText);
      if !IsFileNameValid(fileName, taken) {
        return InvalidName;
      }
      if !mIsFileVerified {
        return StillVerifying;
      }
      if importFileExists {
        if copyFails {
          outcome := CopyFailed(fileName);
        } else {
          outcome := Copied(fileName);
        }
      } else {
        outcome := NothingToCopy;
      }
      mFinished := true;
    }
  }

  /**
   * An intent without data whose first clip item holds only text has no URI:
   * resuming finishes the screen, starts no verification and leaves the
   * intent marked changed.
   */
  method TextOnlyClipFinishes(second: Uri, fileNameOfUri: string) returns (finished: bool, verifications: nat, changed: bool)
    ensures finished && verifications == 0 && changed
  {
    var a := new ImportControlActivity(Intent(None, Some([None, Some(second)])));
    a.OnPostResume(fileNameOfUri);
    finished, verifications, changed := a.mFinished, a.mVerificationsStarted, a.mHasIntentChanged;
  }

  /**
   * A verified file stops counting as verified once a new intent arrives
   * and the screen resumes: the new file must be verified again.
   */
  method NewIntentNeedsVerification(first: Intent, second: Intent, name: string)
    returns (verifiedBefore: bool, verifiedAfter: bool, changedAfter: bool)
    requires first.data.Some? && second.data.Some?
    ensures verifiedBefore && !verifiedAfter && !changedAfter
  {
    var a := new ImportControlActivity(first);
    a.OnPostResume(name);
    a.OnVerificationFinished(true);
    verifiedBefore := a.mIsFileVerified;
    a.OnNewIntent(Some(second));
    a.OnPostResume(name);
    verifiedAfter, changedAfter := a.mIsFileVerified, a.mHasIntentChanged;
  }
}

=== FILE: launcher_activity.dfy ===
/**
 * The launcher's main screen (LauncherActivity): the checks a launch request
 * passes before the game download starts, the notification-permission gate,
 * and hiding the game-start notification while tasks run.
 */
module Launcher {
  import opened Wrappers
  import Profiles

  /** The Android version from which posting notifications needs a runtime permission. */
  const TIRAMISU: int := 33

  /** The version id that marks a profile whose version is not known. */
  const UNKNOWN_VERSION: string := "Unknown"

  /** What the launch listener does with a launch request. */
  datatype LaunchDecision =
    | TasksOngoing                      // toast tasks_ongoing
    | NoVersion                         // toast error_no_version
    | NoAccount                         // toast no_saved_accounts, select an auth method
    | StartDownload(versionId: string)  // the download of the normalized version starts

  /** The profile's version can be launched: it is recorded and is not the "Unknown" marker. */
  predicate HasLaunchableVersion(prof: Option<Profiles.MinecraftProfile>)
    ensures prof.None? ==> !HasLaunchableVersion(prof)
    ensures prof.Some? && prof.value.lastVersionId.None? ==> !HasLaunchableVersion(prof)
    ensures prof.Some? && prof.value.lastVersionId == Some(UNKNOWN_VERSION) ==> !HasLaunchableVersion(prof)
    ensures prof.Some? && prof.value.lastVersionId.Some? && prof.value.lastVersionId.value != UNKNOWN_VERSION ==>
              HasLaunchableVersion(prof)
  {
    prof.Some? && prof.value.lastVersionId.Some? && prof.value.lastVersionId.value != UNKNOWN_VERSION
  }

  /**
   * The decision chain of the launch listener. Running tasks refuse the
   * launch before anything else; then the main profile file must exist and
   * hold the selected profile, whose version must be launchable; then an
   * account must be selected. Only then does a download start, for the
   * version id as normalized by the downloader (normalizeVersionId, which
   * is not part of this model).
   */
  function LaunchGate(hasProcesses: bool, main: Option<Profiles.ProfileMap>, selectedProfile: string,
                      hasAccount: bool, normalize: string -> string): (d: LaunchDecision)
    ensures hasProcesses ==> d == TasksOngoing
    ensures d == NoVersion <==>
              !hasProcesses
              && (main.None? || selectedProfile !in main.value || !HasLaunchableVersion(main.value[selectedProfile]))
    ensures d == NoAccount <==>
              !hasProcesses && main.Some? && selectedProfile in main.value
              && HasLaunchableVersion(main.value[selectedProfile]) && !hasAccount
    ensures d.StartDownload? <==>
              !hasProcesses && main.Some? && selectedProfile in main.value
              && HasLaunchableVersion(main.value[selectedProfile]) && hasAccount
    ensures d.StartDownload? ==>
              d.versionId == normalize(main.value[selectedProfile].value.lastVersionId.value)
  {
    if hasProcesses then TasksOngoing
    else if main.None? || selectedProfile !in main.value then NoVersion
    else
      var prof := main.value[selectedProfile];
      if prof.None? || prof.value.lastVersionId.None? || prof.value.lastVersionId.value == UNKNOWN_VERSION then
        NoVersion
      else if !hasAccount then NoAccount
      else StartDownload(normalize(prof.value.lastVersionId.value))
  }

  /**
   * checkForNotificationPermission: granted below Android 13, otherwise
   * unless the permission is denied.
   */
  function CheckForNotificationPermission(sdkInt: int, denied: bool): (granted: bool)
    ensures sdkInt < TIRAMISU ==> granted
    ensures !granted <==> sdkInt >= TIRAMISU && denied
  {
    sdkInt < TIRAMISU || !denied
  }

  class LauncherActivity {
    /** ExtraCore's SELECT_AUTH_METHOD value, set to show the sign-in choice. */
    var mSelectAuthMethod: bool
    /** Versions whose download was started, in order. */
    var mDownloads: seq<string>
    /** LauncherPreferences.PREF_SKIP_NOTIFICATION_PERMISSION_CHECK and its stored preference. */
    var mSkipNotificationCheck: bool
    var mStoredSkipNotificationCheck: bool
    /** The runnable to run once the permission is granted (held weakly), by id. */
    var mRequestNotificationPermissionRunnable: Option<nat>
    /** Permission requests launched, rationale dialogs shown, game-start notifications cancelled. */
    var mPermissionRequests: nat
    var mRationalesShown: nat
    var mNotificationCancels: nat

    constructor (skipNotificationCheck: bool)
      ensures !mSelectAuthMethod && mDownloads == []
      ensures mSkipNotificationCheck == skipNotificationCheck && mStoredSkipNotificationCheck == skipNotificationCheck
      ensures mRequestNotificationPermissionRunnable == None
      ensures mPermissionRequests == 0 && mRationalesShown == 0 && mNotificationCancels == 0
    {
      mSelectAuthMethod, mDownloads := false, [];
      mSkipNotificationCheck, mStoredSkipNotificationCheck := skipNotificationCheck, skipNotificationCheck;
      mRequestNotificationPermissionRunnable := None;
      mPermissionRequests, mRationalesShown, mNotificationCancels := 0, 0, 0;
    }

    /**
     * The launch listener: acts on the decision of LaunchGate (a missing
     * account also asks for a sign-in method, only an accepted launch
     * starts a download) and never consumes the event.
     */
    method OnLaunchGame(hasProcesses: bool, main: Option<Profiles.ProfileMap>, selectedProfile: string,
                        hasAccount: bool, normalize: string -> string)
      returns (consumed: bool)
      modifies this`mSelectAuthMethod, this`mDownloads
      ensures !consumed
      ensures var d := LaunchGate(hasProcesses, main, selectedProfile, hasAccount, normalize);
              && mDownloads == old(mDownloads) + (if d.StartDownload? then [d.versionId] else [])
              && mSelectAuthMethod == (old(mSelectAuthMethod) || d == NoAccount)
    {
      if hasProcesses {
        return false;
      }
      if main.None? || selectedProfile !in main.value {
        return false;
      }
      var prof := main.value[selectedProfile];
      if prof.None? || prof.value.lastVersionId.None? || prof.value.lastVersionId.value == UNKNOWN_VERSION {
        return false;
      }
      if !hasAccount {
        mSelectAuthMethod := true;
        return false;
      }
      var normalizedVersionId := normalize(prof.value.lastVersionId.value);
      mDownloads := mDownloads + [normalizedVersionId];
      return false;
    }

    /** onTaskCountChanged: the game-start notification is cancelled while any task runs. */
    method OnTaskCountChanged(taskCount: int)
      modifies this`mNotificationCancels
      ensures mNotificationCancels == old(mNotificationCancels) + (if taskCount > 0 then 1 else 0)
    {
      if taskCount > 0 {
        mNotificationCancels := mNotificationCancels + 1;
      }
    }

    /** handleNoNotificationPermission: stop asking, now and in the stored preference. */
    method HandleNoNotificationPermission()
      modifies this`mSkipNotificationCheck, this`mStoredSkipNotificationCheck
      ensures mSkipNotificationCheck && mStoredSkipNotificationCheck
    {
      mSkipNotificationCheck := true;
      mStoredSkipNotificationCheck := true;
    }

    /**
     * askForNotificationPermission: nothing below Android 13; otherwise a
     * non-null runnable is remembered for success and the request launched.
     */
    method AskForNotificationPermission(sdkInt: int, onSuccessRunnable: Option<nat>)
      modifies this`mRequestNotificationPermissionRunnable, this`mPermissionRequests
      ensures sdkInt < TIRAMISU ==>
                mPermissionRequests == old(mPermissionRequests)
                && mRequestNotificationPermissionRunnable == old(mRequestNotificationPermissionRunnable)
      ensures sdkInt >= TIRAMISU ==>
                mPermissionRequests == old(mPermissionRequests) + 1
                && mRequestNotificationPermissionRunnable ==
                   (if onSuccessRunnable.Some? then onSuccessRunnable else old(mRequestNotificationPermissionRunnable))
    {
      if sdkInt < TIRAMISU {
        return;
      }
      if onSuccessRunnable.Some? {
        mRequestNotificationPermissionRunnable := onSuccessRunnable;
      }
      mPermissionRequests := mPermissionRequests + 1;
    }

    /**
     * checkNotificationPermission (at creation): nothing when the check is
     * skipped or the permission granted; otherwise the rationale dialog when
     * the system asks for one, else a request without a runnable.
     */
    method CheckNotificationPermission(sdkInt: int, denied: bool, showRationale: bool)
      modifies this`mRequestNotificationPermissionRunnable, this`mPermissionRequests, this`mRationalesShown
      ensures mRequestNotificationPermissionRunnable == old(mRequestNotificationPermissionRunnable)
      ensures var asks := !mSkipNotificationCheck && !CheckForNotificationPermission(sdkInt, denied);
              && mRationalesShown == old(mRationalesShown) + (if asks && showRationale then 1 else 0)
              && mPermissionRequests == old(mPermissionRequests) + (if asks && !showRationale then 1 else 0)
    {
      if mSkipNotificationCheck || CheckForNotificationPermission(sdkInt, denied) {
        return;
      }
      if showRationale {
        mRationalesShown := mRationalesShown + 1;
        return;
      }
      AskForNotificationPermission(sdkInt, None);
    }

    /**
     * The permission result: a refusal stops further asking; a grant runs the
     * remembered runnable if it is still alive (runnableAlive: the weak
     * reference was not cleared).
     */
    method OnPermissionResult(isAllowed: bool, runnableAlive: bool) returns (ran: Option<nat>)
      modifies this`mSkipNotificationCheck, this`mStoredSkipNotificationCheck
      ensures !isAllowed ==> ran == None && mSkipNotificationCheck && mStoredSkipNotificationCheck
      ensures isAllowed ==>
                && mSkipNotificationCheck == old(mSkipNotificationCheck)
                && mStoredSkipNotificationCheck == old(mStoredSkipNotificationCheck)
                && ran == (if runnableAlive then mRequestNotificationPermissionRunnable else None)
    {
      if !isAllowed {
        HandleNoNotificationPermission();
        return None;
      }
      ran := if runnableAlive then mRequestNotificationPermissionRunnable else None;
    }
  }

  /** A launch with a valid profile and an account downloads exactly that profile's normalized version. */
  lemma LaunchStartsSelectedVersion(main: Profiles.ProfileMap, selectedProfile: string, id: string,
                                    normalize: string -> string)
    requires selectedProfile in main && main[selectedProfile].Some?
    requires main[selectedProfile].value.lastVersionId == Some(id) && id != UNKNOWN_VERSION
    ensures LaunchGate(false, Some(main), selectedProfile, true, normalize) == StartDownload(normalize(id))
    ensures LaunchGate(false, Some(main), selectedProfile, false, normalize) == NoAccount
    ensures LaunchGate(true, Some(main), selectedProfile, true, normalize) == TasksOngoing
  {
  }

  /**
   * Below Android 13 the permission flow never asks: whatever the check
   * preference and the rationale, no request and no dialog follow.
   */
  method NoRequestBeforeTiramisu(sdkInt: int, skip: bool, denied: bool, showRationale: bool)
    returns (requests: nat, rationales: nat)
    requires sdkInt < TIRAMISU
    ensures requests == 0 && rationales == 0
  {
    var a := new LauncherActivity(skip);
    a.CheckNotificationPermission(sdkInt, denied, showRationale);
    a.AskForNotificationPermission(sdkInt, Some(1));
    requests, rationales := a.mPermissionRequests, a.mRationalesShown;
  }
}

=== FILE: mod_adapter.dfy ===
/**
 * The mod search list (ModItemAdapter): a search session that accumulates
 * result pages, at most one page task recorded as in progress, and the set of
 * rows it created. Page tasks are futures identified by their index in
 * mTasks; a worker's start, its return and the runnable it posts to the main
 * thread are separate events, applied in any order the caller picks.
 */
module ModpackAdapter {
  import opened Wrappers
  import opened ModpackSearch
  import opened ModpackRows

  /** What a page worker posts: the page, the accumulated list, the API's result. */
  datatype PostedPage = PostedPage(page: seq<ModItem>, accumulated: seq<ModItem>, result: SearchResult)

  /**
   * A SearchApiTask and its future: the filters and previous result it was
   * created with, its executor state, whether cancel() succeeded, what it
   * posted (nothing when the API returned null, a null list, or threw) and
   * whether the posted runnable has run.
   */
  datatype PageTask = PageTask(filters: Option<SearchFilters>, previous: Option<SearchResult>,
                               state: FutureState, cancelled: bool, posted: Option<PostedPage>, postRan: bool)

  /** What the adapter tells the list widget and the search callback, in order. */
  datatype AdapterEvent = Notified(notice: Notice) | SearchFinished | SearchError(code: int)

  /** The adapter's list state: the accumulated items, whether the last page was seen, the current result. */
  datatype Listing = Listing(items: seq<ModItem>, lastPage: bool, current: Option<SearchResult>)

  /** What a posted runnable leaves behind: the new listing and the events it sent. */
  datatype Applied = Applied(listing: Listing, events: seq<AdapterEvent>)

  /** The result of onCreateViewHolder: a row, the loading row, or the exception for other view types. */
  datatype Created = RowHolder(holder: ViewHolder) | LoadingHolder | UnimplementedViewType

  /** The previous result's list (empty for a first page). */
  function PreviousItems(previous: Option<SearchResult>): (r: seq<ModItem>)
  {
    if previous.Some? && previous.value.results.Some? then previous.value.results.value else []
  }

  /** A posted page carries the previous list followed by the page, and the API's result holds the page. */
  predicate PostedFor(previous: Option<SearchResult>, p: PostedPage)
  {
    && (previous.Some? ==> previous.value.results.Some?)
    && p.accumulated == PreviousItems(previous) + p.page
    && p.result.results == Some(p.page)
  }

  predicate TaskWellFormed(t: PageTask)
  {
    && (t.previous.Some? ==> t.previous.value.results.Some?)
    && (t.posted.Some? ==> t.state == Done && PostedFor(t.previous, t.posted.value))
    && (t.postRan ==> t.posted.Some?)
  }

  /** mTasks after cancel(true) on task i. */
  function CancelPage(tasks: seq<PageTask>, i: nat): (r: seq<PageTask>)
    requires i < |tasks|
  {
    tasks[i := tasks[i].(cancelled := CancelOutcome(tasks[i].state, tasks[i].cancelled))]
  }

  function Notifications(ns: seq<Notice>): (r: seq<AdapterEvent>)
  {
    seq(|ns|, i requires 0 <= i < |ns| => Notified(ns[i]))
  }

  /** The list-widget notices among the events, in order. */
  function NoticesOf(events: seq<AdapterEvent>): (r: seq<Notice>)
  {
    if events == [] then []
    else (if events[0].Notified? then [events[0].notice] else []) + NoticesOf(events[1..])
  }

  lemma {:induction false} NoticesOfAppend(a: seq<AdapterEvent>, b: seq<AdapterEvent>)
    ensures NoticesOf(a + b) == NoticesOf(a) + NoticesOf(b)
    decreases |a|
  {
    if a != [] {
      assert (a + b)[0] == a[0];
      assert (a + b)[1..] == a[1..] + b;
      var head := if a[0].Notified? then [a[0].notice] else [];
      calc {
        NoticesOf(a + b);
        head + NoticesOf(a[1..] + b);
        { NoticesOfAppend(a[1..], b); }
        head + (NoticesOf(a[1..]) + NoticesOf(b));
        (head + NoticesOf(a[1..])) + NoticesOf(b);
        NoticesOf(a) + NoticesOf(b);
      }
    } else {
      assert a + b == b;
    }
  }

  lemma {:induction false} NoticesOfNotifications(ns: seq<Notice>)
    ensures NoticesOf(Notifications(ns)) == ns
    decreases |ns|
  {
    if ns != [] {
      assert Notifications(ns) == [Notified(ns[0])] + Notifications(ns[1..]);
      NoticesOfNotifications(ns[1..]);
      NoticesOfAppend([Notified(ns[0])], Notifications(ns[1..]));
    }
  }

  /** The search callback's event for a page that is not an empty later page. */
  function Status(page: seq<ModItem>): (r: seq<AdapterEvent>)
  {
    if page == [] then [SearchError(ERROR_NO_RESULTS)] else [SearchFinished]
  }

  /**
   * What the posted runnable does to the listing once it gets past its guard,
   * as written (ModItemAdapter.java:363-384).
   */
  function ApplyPageAsWritten(l: Listing, previous: Option<SearchResult>, p: PostedPage): (r: Applied)
    ensures r.listing.items == if p.page == [] && previous.Some? then l.items else p.accumulated
    ensures r.listing.lastPage <==> l.lastPage || (p.page == [] && previous.Some?)
    ensures !(p.page == [] && previous.Some?) ==> r.listing.current.Some?
    ensures r.events != [] && r.events[0] == (if p.page == [] && previous.None? then SearchError(ERROR_NO_RESULTS)
                                               else if p.page == [] then Notified(ItemChanged(|l.items|)) else SearchFinished)
  {
    if p.page == [] && previous.Some? then
      Applied(l.(lastPage := true), Notifications(LastPageNoticesAsWritten(|l.items|)) + [SearchFinished])
    else
      var current := if previous.Some? then Some(SearchResult(Some(p.accumulated))) else Some(p.result);
      if previous.None? then
        Applied(Listing(p.accumulated, l.lastPage, current), Status(p.page) + [Notified(DataSetChanged)])
      else
        Applied(Listing(p.accumulated, l.lastPage, current),
                Status(p.page) + Notifications(LaterPageNotices(|l.items|, |p.accumulated|)))
  }

  /** The same, with the corrected notices: the loading row removed, the insertion sized by the page. */
  function ApplyPage(l: Listing, previous: Option<SearchResult>, p: PostedPage): (r: Applied)
    ensures r.listing.items == if p.page == [] && previous.Some? then l.items else p.accumulated
    ensures r.listing.lastPage <==> l.lastPage || (p.page == [] && previous.Some?)
    ensures !(p.page == [] && previous.Some?) ==> r.listing.current.Some?
    ensures r.events != [] && r.events[0] == (if p.page == [] && previous.None? then SearchError(ERROR_NO_RESULTS)
                                               else if p.page == [] then Notified(ItemRemoved(|l.items|)) else SearchFinished)
  {
    if p.page == [] && previous.Some? then
      Applied(l.(lastPage := true), Notifications(LastPageNotices(|l.items|)) + [SearchFinished])
    else
      var current := if previous.Some? then Some(SearchResult(Some(p.accumulated))) else Some(p.result);
      if previous.None? then
        Applied(Listing(p.accumulated, l.lastPage, current), Status(p.page) + [Notified(DataSetChanged)])
      else
        Applied(Listing(p.accumulated, l.lastPage, current),
                Status(p.page) + Notifications(LaterPageNotices(|l.items|, |p.page|)))
  }

  /** The listing a page task finds when its runnable applies it: more pages expected, the previous list shown. */
  predicate Continues(l: Listing, previous: Option<SearchResult>, p: PostedPage)
  {
    && !l.lastPage
    && PostedFor(previous, p)
    && (previous.Some? ==> previous.value.results == Some(l.items) && l.current == previous)
  }

  /**
   * Both versions of the runnable keep the current result holding the shown
   * list.
   */
  lemma ApplyPageKeepsResult(l: Listing, previous: Option<SearchResult>, p: PostedPage)
    requires PostedFor(previous, p)
    requires l.current.Some? ==> l.current.value.results == Some(l.items)
    ensures var r := ApplyPage(l, previous, p);
            r.listing.current.Some? ==> r.listing.current.value.results == Some(r.listing.items)
    ensures var r := ApplyPageAsWritten(l, previous, p);
            r.listing.current.Some? ==> r.listing.current.value.results == Some(r.listing.items)
  {
    if previous.None? {
      assert p.accumulated == p.page;
    }
  }

  /**
   * Applying a page: a first page replaces the list, a later page is appended
   * to it, an empty later page marks the last page and keeps the list; an empty
   * first page is reported as "no results" and any other page as finished; the
   * current result holds the new list; and the notices sent account exactly
   * for the change of getItemCount.
   */
  lemma ApplyPageCorrect(l: Listing, previous: Option<SearchResult>, p: PostedPage)
    requires Continues(l, previous, p)
    ensures var r := ApplyPage(l, previous, p);
            && r.listing.items == (if previous.Some? then l.items + p.page else p.page)
            && (r.listing.lastPage <==> p.page == [] && previous.Some?)
            && r.listing.current.Some? && r.listing.current.value.results == Some(r.listing.items)
            && (SearchError(ERROR_NO_RESULTS) in r.events <==> p.page == [] && previous.None?)
            && (SearchFinished in r.events <==> !(p.page == [] && previous.None?))
            && Accounts(ItemCount(l.items, l.lastPage), NoticesOf(r.events),
                        ItemCount(r.listing.items, r.listing.lastPage))
  {
    var r := ApplyPage(l, previous, p);
    if p.page == [] && previous.Some? {
      NoticesOfAppend(Notifications(LastPageNotices(|l.items|)), [SearchFinished]);
      NoticesOfNotifications(LastPageNotices(|l.items|));
      assert NoticesOf([SearchFinished]) == [];
      LastPageNoticesAccount(l.items);
    } else if previous.None? {
      NoticesOfAppend(Status(p.page), [Notified(DataSetChanged)]);
      assert NoticesOf(Status(p.page)) == [];
      assert NoticesOf([Notified(DataSetChanged)]) == [DataSetChanged];
    } else {
      NoticesOfAppend(Status(p.page), Notifications(LaterPageNotices(|l.items|, |p.page|)));
      NoticesOfNotifications(LaterPageNotices(|l.items|, |p.page|));
      assert NoticesOf(Status(p.page)) == [];
      LaterPageNoticesAccount(l.items, p.page);
    }
  }

  /**
   * As written, the notices of a later page account for the change of
   * getItemCount only when that page is non-empty and the list was empty: an
   * empty last page is reported as a change, a non-empty one as an insertion of
   * the whole list.
   */
  lemma ApplyPageAsWrittenMiscounts(l: Listing, previous: Option<SearchResult>, p: PostedPage)
    requires Continues(l, previous, p) && previous.Some?
    ensures var r := ApplyPageAsWritten(l, previous, p);
            Accounts(ItemCount(l.items, l.lastPage), NoticesOf(r.events),
                     ItemCount(r.listing.items, r.listing.lastPage))
            <==> p.page != [] && l.items == []
  {
    var r := ApplyPageAsWritten(l, previous, p);
    if p.page == [] {
      NoticesOfAppend(Notifications(LastPageNoticesAsWritten(|l.items|)), [SearchFinished]);
      NoticesOfNotifications(LastPageNoticesAsWritten(|l.items|));
      assert NoticesOf([SearchFinished]) == [];
      LastPageNoticesAsWrittenMismatch(l.items);
    } else {
      assert p.accumulated == l.items + p.page;
      NoticesOfAppend(Status(p.page), Notifications(LaterPageNotices(|l.items|, |p.accumulated|)));
      NoticesOfNotifications(LaterPageNotices(|l.items|, |p.accumulated|));
      assert NoticesOf(Status(p.page)) == [];
      assert NoticesOf(r.events) == LaterPageNotices(|l.items|, |l.items + p.page|);
      LaterPageNoticesAsWrittenOvercount(l.items, p.page);
    }
  }

  class ModItemAdapter {
    var mModItems: seq<ModItem>
    var mLastPage: bool
    /** The page task in progress, by index in mTasks. */
    var mTaskInProgress: Option<nat>
    var mCurrentResult: Option<SearchResult>
    var mSearchFilters: Option<SearchFilters>
    var mTasksRunning: bool
    /** Every page task the adapter has submitted, by id. */
    var mTasks: seq<PageTask>
    /** Every notice and callback the adapter has sent, in order. */
    var mLog: seq<AdapterEvent>
    /** Every row the adapter created (a set: no row twice). */
    var mViewHolderSet: seq<ViewHolder>
    /** The filters of the query whose pages make up mModItems. */
    ghost var mItemsQuery: Option<SearchFilters>

    ghost predicate Valid()
      reads this
    {
      && (forall i :: 0 <= i < |mTasks| ==> TaskWellFormed(mTasks[i]))
      && (mCurrentResult.Some? ==> mCurrentResult.value.results == Some(mModItems))
      && (mTaskInProgress.Some? ==>
            && mTaskInProgress.value < |mTasks|
            && !mTasks[mTaskInProgress.value].cancelled
            && !mTasks[mTaskInProgress.value].postRan
            && mTasks[mTaskInProgress.value].filters == mSearchFilters
            && (mTasks[mTaskInProgress.value].previous.Some? ==>
                  mTasks[mTaskInProgress.value].previous == mCurrentResult)
            && !mLastPage)
      && (forall i, j :: 0 <= i < j < |mViewHolderSet| ==> mViewHolderSet[i] != mViewHolderSet[j])
    }

    /**
     * The list shows the current query's results, except while that query's
     * first page is in progress.
     */
    ghost predicate Coherent()
      reads this
    {
      mItemsQuery != mSearchFilters ==>
        mTaskInProgress.Some? && mTaskInProgress.value < |mTasks| && mTasks[mTaskInProgress.value].previous.None?
    }

    ghost predicate RowsValid()
      reads this, mViewHolderSet
    {
      forall k :: 0 <= k < |mViewHolderSet| ==> mViewHolderSet[k].Valid()
    }

    ghost function ListingOf(): Listing
      reads this
    {
      Listing(mModItems, mLastPage, mCurrentResult)
    }

    constructor ()
      ensures Valid() && Coherent() && RowsValid()
      ensures mModItems == [] && !mLastPage && mTaskInProgress == None && mCurrentResult == None
      ensures mSearchFilters == None && !mTasksRunning && mTasks == [] && mLog == [] && mViewHolderSet == []
    {
      mModItems, mLastPage, mTaskInProgress, mCurrentResult := [], false, None, None;
      mSearchFilters, mTasksRunning, mTasks, mLog, mViewHolderSet := None, false, [], [], [];
      mItemsQuery := None;
    }

    /**
     * performSearchQuery: cancels the task in progress, records the filters,
     * expects more pages and submits a first-page task for the filters.
     */
    method PerformSearchQuery(filters: SearchFilters)
      requires Valid()
      modifies this`mTasks, this`mTaskInProgress, this`mSearchFilters, this`mLastPage
      ensures Valid() && Coherent()
      ensures mSearchFilters == Some(filters) && !mLastPage && mTaskInProgress == Some(|old(mTasks)|)
      ensures mTasks == (if old(mTaskInProgress).Some? then CancelPage(old(mTasks), old(mTaskInProgress).value)
                         else old(mTasks)) + [PageTask(Some(filters), None, NotStarted, false, None, false)]
    {
      if mTaskInProgress.Some? {
        mTasks := CancelPage(mTasks, mTaskInProgress.value);
        mTaskInProgress := None;
      }
      mSearchFilters := Some(filters);
      mLastPage := false;
      mTaskInProgress := Some(|mTasks|);
      mTasks := mTasks + [PageTask(Some(filters), None, NotStarted, false, None, false)];
    }

    /**
     * loadMoreResults, reached by binding the loading row (so before the last
     * page): nothing while a task is in progress; otherwise a task for the
     * next page after the current result.
     */
    method LoadMoreResults()
      requires Valid() && !mLastPage
      modifies this`mTasks, this`mTaskInProgress
      ensures Valid() && (old(Coherent()) ==> Coherent())
      ensures old(mTaskInProgress).Some? ==> mTasks == old(mTasks) && mTaskInProgress == old(mTaskInProgress)
      ensures old(mTaskInProgress).None? ==>
                && mTaskInProgress == Some(|old(mTasks)|)
                && mTasks == old(mTasks) + [PageTask(mSearchFilters, mCurrentResult, NotStarted, false, None, false)]
    {
      if mTaskInProgress.Some? {
        return;
      }
      mTaskInProgress := Some(|mTasks|);
      mTasks := mTasks + [PageTask(mSearchFilters, mCurrentResult, NotStarted, false, None, false)];
    }

    /**
     * onCreateViewHolder: an item row is created and joins the row set; the
     * loading row holds nothing; any other view type throws.
     */
    method OnCreateViewHolder(viewType: int) returns (c: Created)
      requires Valid() && RowsValid()
      modifies this`mViewHolderSet
      ensures Valid() && RowsValid()
      ensures viewType == VIEW_TYPE_MOD_ITEM ==>
                c.RowHolder? && fresh(c.holder) && mViewHolderSet == old(mViewHolderSet) + [c.holder]
                && c.holder.mModItem == None && !c.holder.mHasExtended
      ensures viewType != VIEW_TYPE_MOD_ITEM ==> mViewHolderSet == old(mViewHolderSet)
      ensures viewType == VIEW_TYPE_LOADING ==> c == LoadingHolder
      ensures viewType != VIEW_TYPE_MOD_ITEM && viewType != VIEW_TYPE_LOADING ==> c == UnimplementedViewType
    {
      if viewType == VIEW_TYPE_MOD_ITEM {
        var h := new ViewHolder();
        mViewHolderSet := mViewHolderSet + [h];
        c := RowHolder(h);
      } else if viewType == VIEW_TYPE_LOADING {
        c := LoadingHolder;
      } else {
        c := UnimplementedViewType;
      }
    }

    /**
     * onBindViewHolder: an item position rebinds its row to that item, which
     * forgets the row's detail, cancels its pending fetch and collapses it; the
     * loading position asks for more results and leaves the holder alone.
     */
    method OnBindViewHolder(holder: ViewHolder?, position: int)
      requires Valid() && RowsValid()
      requires 0 <= position < ItemCount(mModItems, mLastPage)
      requires position < |mModItems| ==> holder != null && holder in mViewHolderSet
      modifies this`mTasks, this`mTaskInProgress, if position < |mModItems| then {holder} else {}
      ensures Valid() && RowsValid() && (old(Coherent()) ==> Coherent())
      ensures position < |mModItems| ==>
                && holder.mModItem == Some(mModItems[position]) && holder.Coherent()
                && holder.mModDetail == None && holder.mExtensionFuture == None && !holder.mExtendedVisible
                && holder.mFutures == (if old(holder.mExtensionFuture).Some?
                                       then CancelTask(old(holder.mFutures), old(holder.mExtensionFuture).value)
                                       else old(holder.mFutures))
                && mTasks == old(mTasks) && mTaskInProgress == old(mTaskInProgress)
      ensures position == |mModItems| && old(mTaskInProgress).None? ==>
                mTasks == old(mTasks) + [PageTask(mSearchFilters, mCurrentResult, NotStarted, false, None, false)]
                && mTaskInProgress == Some(|old(mTasks)|)
      ensures position == |mModItems| && old(mTaskInProgress).Some? ==>
                mTasks == old(mTasks) && mTaskInProgress == old(mTaskInProgress)
    {
      if ItemViewType(mModItems, position) == VIEW_TYPE_MOD_ITEM {
        holder.SetStateLimited(mModItems[position]);
        assert forall k :: 0 <= k < |mViewHolderSet| && mViewHolderSet[k] != holder ==> mViewHolderSet[k].Valid();
      } else {
        LoadMoreResults();
      }
    }

    /** The page worker starts; a task cancelled before it started never runs. */
    method RunSearchTask(t: nat)
      requires Valid() && t < |mTasks| && mTasks[t].state == NotStarted && !mTasks[t].cancelled
      modifies this`mTasks
      ensures Valid() && (old(Coherent()) ==> Coherent())
      ensures mTasks == old(mTasks)[t := old(mTasks)[t].(state := Running)]
    {
      mTasks := mTasks[t := mTasks[t].(state := Running)];
    }

    /**
     * The page worker's searchMod call returns result (None: null, or the call
     * threw). Only a result with a non-null list is posted, with the previous
     * list followed by the page; the future is then done.
     */
    method CompleteSearchTask(t: nat, result: Option<SearchResult>)
      requires Valid() && t < |mTasks| && mTasks[t].state == Running
      modifies this`mTasks
      ensures Valid() && (old(Coherent()) ==> Coherent())
      ensures var posted := if result.Some? && result.value.results.Some? then
                              Some(PostedPage(result.value.results.value,
                                              PreviousItems(old(mTasks[t].previous)) + result.value.results.value,
                                              result.value))
                            else None;
              mTasks == old(mTasks)[t := old(mTasks)[t].(state := Done, posted := posted)]
    {
      var posted := None;
      if result.Some? && result.value.results.Some? {
        var modItems := result.value.results.value;
        var newModItems := if mTasks[t].previous.Some? then mTasks[t].previous.value.results.value else [];
        newModItems := newModItems + modItems;
        posted := Some(PostedPage(modItems, newModItems, result.value));
      }
      mTasks := mTasks[t := mTasks[t].(state := Done, posted := posted)];
    }

    /**
     * The body of the posted runnable past its guard, as written
     * (ModItemAdapter.java:364-384): the listing and the events of
     * ApplyPageAsWritten.
     */
    method ShowPageAsWritten(previous: Option<SearchResult>, p: PostedPage)
      requires PostedFor(previous, p)
      modifies this`mModItems, this`mLastPage, this`mCurrentResult, this`mLog
      ensures var r := ApplyPageAsWritten(old(ListingOf()), previous, p);
              ListingOf() == r.listing && mLog == old(mLog) + r.events
    {
      if p.page == [] {
        if previous.Some? {
          mLastPage := true;
          mLog := mLog + [Notified(ItemChanged(|mModItems|))];
          mLog := mLog + [SearchFinished];
          return;
        }
        mLog := mLog + [SearchError(ERROR_NO_RESULTS)];
      } else {
        mLog := mLog + [SearchFinished];
      }
      mCurrentResult := if previous.Some? then Some(SearchResult(Some(p.accumulated))) else Some(p.result);
      if previous.None? {
        mModItems := p.accumulated;
        mLog := mLog + [Notified(DataSetChanged)];
        return;
      }
      var prevLength := |mModItems|;
      mModItems := p.accumulated;
      mLog := mLog + [Notified(ItemChanged(prevLength))];
      mLog := mLog + [Notified(ItemRangeInserted(prevLength + 1, |mModItems|))];
    }

    /** The body of the posted runnable past its guard, with the corrected notices: the listing and events of ApplyPage. */
    method ShowPage(previous: Option<SearchResult>, p: PostedPage)
      requires PostedFor(previous, p)
      modifies this`mModItems, this`mLastPage, this`mCurrentResult, this`mLog
      ensures var r := ApplyPage(old(ListingOf()), previous, p);
              ListingOf() == r.listing && mLog == old(mLog) + r.events
    {
      if p.page == [] {
        if previous.Some? {
          mLastPage := true;
          mLog := mLog + [Notified(ItemRemoved(|mModItems|))];
          mLog := mLog + [SearchFinished];
          return;
        }
        mLog := mLog + [SearchError(ERROR_NO_RESULTS)];
      } else {
        mLog := mLog + [SearchFinished];
      }
      mCurrentResult := if previous.Some? then Some(SearchResult(Some(p.accumulated))) else Some(p.result);
      if previous.None? {
        mModItems := p.accumulated;
        mLog := mLog + [Notified(DataSetChanged)];
        return;
      }
      var prevLength := |mModItems|;
      mModItems := p.accumulated;
      mLog := mLog + [Notified(ItemChanged(prevLength))];
      mLog := mLog + [Notified(ItemRangeInserted(prevLength + 1, |p.page|))];
    }

    /**
     * The posted runnable runs, as written. Its guard looks at the task in
     * the field, not at itself, and that task is never cancelled, so the guard
     * never stops it: every posted page is applied, whatever query it belongs
     * to, and the field is cleared.
     */
    method OnSearchPosted(t: nat)
      requires Valid() && t < |mTasks| && mTasks[t].posted.Some? && !mTasks[t].postRan
      modifies this`mTasks, this`mTaskInProgress, this`mModItems, this`mLastPage, this`mCurrentResult,
               this`mLog, this`mItemsQuery
      ensures Valid()
      ensures mTasks == old(mTasks)[t := old(mTasks)[t].(postRan := true)]
      ensures mTaskInProgress == None
      ensures var r := ApplyPageAsWritten(old(ListingOf()), old(mTasks[t].previous), old(mTasks[t].posted.value));
              ListingOf() == r.listing && mLog == old(mLog) + r.events
    {
      mTasks := mTasks[t := mTasks[t].(postRan := true)];
      if mTaskInProgress.Some? && mTasks[mTaskInProgress.value].cancelled {
        assert false;
      }
      var p, previous := mTasks[t].posted.value, mTasks[t].previous;
      mTaskInProgress := None;
      ApplyPageKeepsResult(ListingOf(), previous, p);
      if !(p.page == [] && previous.Some?) {
        mItemsQuery := mTasks[t].filters;
      }
      ShowPageAsWritten(previous, p);
    }

    /**
     * The posted runnable runs, corrected: it applies its page only while its
     * own task is the one in progress, with the corrected notices, and
     * otherwise changes nothing. The list then keeps showing the current
     * query's results.
     */
    method OnSearchPostedFixed(t: nat)
      requires Valid() && t < |mTasks| && mTasks[t].posted.Some? && !mTasks[t].postRan
      modifies this`mTasks, this`mTaskInProgress, this`mModItems, this`mLastPage, this`mCurrentResult,
               this`mLog, this`mItemsQuery
      ensures Valid() && (old(Coherent()) ==> Coherent())
      ensures mTasks == old(mTasks)[t := old(mTasks)[t].(postRan := true)]
      ensures old(mTaskInProgress) != Some(t) ==>
                && mTaskInProgress == old(mTaskInProgress) && ListingOf() == old(ListingOf())
                && mLog == old(mLog) && mItemsQuery == old(mItemsQuery)
      ensures old(mTaskInProgress) == Some(t) ==>
                var r := ApplyPage(old(ListingOf()), old(mTasks[t].previous), old(mTasks[t].posted.value));
                && mTaskInProgress == None
                && ListingOf() == r.listing && mLog == old(mLog) + r.events
                && Continues(old(ListingOf()), old(mTasks[t].previous), old(mTasks[t].posted.value))
    {
      mTasks := mTasks[t := mTasks[t].(postRan := true)];
      if mTaskInProgress != Some(t) {
        return;
      }
      var p, previous := mTasks[t].posted.value, mTasks[t].previous;
      mTaskInProgress := None;
      ApplyPageKeepsResult(ListingOf(), previous, p);
      if !(p.page == [] && previous.Some?) {
        mItemsQuery := mTasks[t].filters;
      }
      ShowPage(previous, p);
    }

    /**
     * onUpdateTaskCount: records whether any launcher task runs and updates
     * every row's install button; nothing else in a row changes.
     */
    method OnUpdateTaskCount(taskCount: int)
      requires Valid() && RowsValid()
      modifies this`mTasksRunning, mViewHolderSet`mButtonEnabled
      ensures Valid() && RowsValid()
      ensures forall k :: 0 <= k < |mViewHolderSet| && old(mViewHolderSet[k].Coherent()) ==>
                mViewHolderSet[k].Coherent()
      ensures mTasksRunning == (taskCount != 0)
      ensures forall k :: 0 <= k < |mViewHolderSet| ==>
                mViewHolderSet[k].mButtonEnabled ==
                  if mViewHolderSet[k].mHasExtended then mViewHolderSet[k].mInstallEnabled && !mTasksRunning
                  else old(mViewHolderSet[k].mButtonEnabled)
    {
      mTasksRunning := taskCount != 0;
      var i := 0;
      while i < |mViewHolderSet|
        invariant 0 <= i <= |mViewHolderSet|
        invariant Valid() && RowsValid() && mTasksRunning == (taskCount != 0)
        invariant forall k :: 0 <= k < |mViewHolderSet| ==>
                    mViewHolderSet[k].mHasExtended == old(mViewHolderSet[k].mHasExtended)
                    && mViewHolderSet[k].mInstallEnabled == old(mViewHolderSet[k].mInstallEnabled)
        invariant forall k :: 0 <= k < i ==>
                    mViewHolderSet[k].mButtonEnabled ==
                      if mViewHolderSet[k].mHasExtended then mViewHolderSet[k].mInstallEnabled && !mTasksRunning
                      else old(mViewHolderSet[k].mButtonEnabled)
        invariant forall k :: i <= k < |mViewHolderSet| ==>
                    mViewHolderSet[k].mButtonEnabled == old(mViewHolderSet[k].mButtonEnabled)
      {
        mViewHolderSet[i].UpdateInstallButtonState(mTasksRunning);
        i := i + 1;
      }
    }
  }

  /**
   * A query for q1 starts; the user searches for q2 while q1's task runs, so
   * q1's task is cancelled; q2's first page is shown, then q1's late page
   * arrives. As written, q1's page is applied: the list shows q1's results
   * while the filters say q2.
   */
  method StalePageAsWritten(q1: SearchFilters, q2: SearchFilters, p1: seq<ModItem>, p2: seq<ModItem>)
    returns (shown: seq<ModItem>, filters: Option<SearchFilters>, firstCancelled: bool)
    ensures shown == p1 && filters == Some(q2) && firstCancelled
  {
    var a := new ModItemAdapter();
    a.PerformSearchQuery(q1);
    a.RunSearchTask(0);
    a.PerformSearchQuery(q2);
    a.RunSearchTask(1);
    a.CompleteSearchTask(1, Some(SearchResult(Some(p2))));
    a.CompleteSearchTask(0, Some(SearchResult(Some(p1))));
    a.OnSearchPosted(1);
    a.OnSearchPosted(0);
    return a.mModItems, a.mSearchFilters, a.mTasks[0].cancelled;
  }

  /** The same events with the corrected runnable: the list shows q2's page. */
  method StalePageFixed(q1: SearchFilters, q2: SearchFilters, p1: seq<ModItem>, p2: seq<ModItem>)
    returns (shown: seq<ModItem>, filters: Option<SearchFilters>, firstCancelled: bool)
    ensures shown == p2 && filters == Some(q2) && firstCancelled
  {
    var a := new ModItemAdapter();
    a.PerformSearchQuery(q1);
    a.RunSearchTask(0);
    a.PerformSearchQuery(q2);
    a.RunSearchTask(1);
    a.CompleteSearchTask(1, Some(SearchResult(Some(p2))));
    a.CompleteSearchTask(0, Some(SearchResult(Some(p1))));
    a.OnSearchPostedFixed(1);
    a.OnSearchPostedFixed(0);
    return a.mModItems, a.mSearchFilters, a.mTasks[0].cancelled;
  }

  /**
   * A new adapter that searched q and received a non-empty first page: the
   * page is listed with the loading row after it, and no task is in progress.
   */
  method ListFirstPage(q: SearchFilters, page: seq<ModItem>) returns (a: ModItemAdapter)
    requires page != []
    ensures fresh(a) && a.Valid() && a.RowsValid()
    ensures a.mModItems == page && !a.mLastPage && a.mCurrentResult == Some(SearchResult(Some(page)))
    ensures a.mTaskInProgress == None && |a.mTasks| == 1
    ensures a.mLog == [SearchFinished, Notified(DataSetChanged)]
  {
    a := new ModItemAdapter();
    a.PerformSearchQuery(q);
    a.RunSearchTask(0);
    a.CompleteSearchTask(0, Some(SearchResult(Some(page))));
    a.OnSearchPosted(0);
  }

  /**
   * A query whose first page is non-empty lists the page and the loading row;
   * binding the loading row asks for the next page; an empty next page ends
   * the list. As written the end is reported as a change of the loading row's
   * position.
   */
  method SearchToLastPage(q: SearchFilters, page: seq<ModItem>)
    returns (firstCount: nat, finalCount: nat, log: seq<AdapterEvent>)
    requires page != []
    ensures firstCount == |page| + 1 && finalCount == |page|
    ensures log == [SearchFinished, Notified(DataSetChanged), Notified(ItemChanged(|page|)), SearchFinished]
  {
    var a := ListFirstPage(q, page);
    firstCount := ItemCount(a.mModItems, a.mLastPage);
    a.OnBindViewHolder(null, |page|);
    assert |a.mTasks| == 2 && a.mTasks[1].previous == Some(SearchResult(Some(page)));
    a.RunSearchTask(1);
    a.CompleteSearchTask(1, Some(SearchResult(Some([]))));
    a.OnSearchPosted(1);
    finalCount := ItemCount(a.mModItems, a.mLastPage);
    log := a.mLog;
  }

  /**
   * A query with no results reports "no results", but the last page is not
   * marked: the list still counts the loading row, and binding it asks for a
   * next page; only that empty next page empties the list.
   */
  method SearchWithoutResults(q: SearchFilters)
    returns (countAfterFirst: nat, nextPageRequested: bool, finalCount: nat, log: seq<AdapterEvent>)
    ensures countAfterFirst == 1 && nextPageRequested && finalCount == 0
    ensures log == [SearchError(ERROR_NO_RESULTS), Notified(DataSetChanged), Notified(ItemChanged(0)), SearchFinished]
  {
    var none := SearchResult(Some([]));
    var a := new ModItemAdapter();
    a.PerformSearchQuery(q);
    a.RunSearchTask(0);
    a.CompleteSearchTask(0, Some(none));
    assert a.mTasks[0].previous == None;
    assert PreviousItems(None) == [];
    assert a.mTasks[0].posted.value.accumulated == [];
    assert a.mTasks[0].posted == Some(PostedPage([], [], none));
    a.OnSearchPosted(0);
    assert a.mLog == [SearchError(ERROR_NO_RESULTS), Notified(DataSetChanged)];
    assert a.mModItems == [] && !a.mLastPage && a.mCurrentResult == Some(none) && a.mTaskInProgress == None;
    countAfterFirst := ItemCount(a.mModItems, a.mLastPage);
    a.OnBindViewHolder(null, 0);
    assert |a.mTasks| == 2 && a.mTasks[1] == PageTask(Some(q), Some(none), NotStarted, false, None, false);
    nextPageRequested := a.mTaskInProgress == Some(1);
    a.RunSearchTask(1);
    a.CompleteSearchTask(1, Some(none));
    assert a.mTasks[1].posted == Some(PostedPage([], [], none)) && a.mTasks[1].previous == Some(none);
    a.OnSearchPosted(1);
    finalCount := ItemCount(a.mModItems, a.mLastPage);
    log := a.mLog;
  }

  /**
   * A page whose API call fails posts nothing, so the task stays recorded as
   * in progress: binding the loading row again never asks for more.
   */
  method FailedPageBlocksLoading(q: SearchFilters, page: seq<ModItem>)
    returns (stuck: bool, taskCount: nat)
    requires page != []
    ensures stuck && taskCount == 2
  {
    var a := new ModItemAdapter();
    a.PerformSearchQuery(q);
    a.RunSearchTask(0);
    a.CompleteSearchTask(0, Some(SearchResult(Some(page))));
    a.OnSearchPosted(0);
    a.OnBindViewHolder(null, |page|);
    a.RunSearchTask(1);
    a.CompleteSearchTask(1, None);
    a.OnBindViewHolder(null, |page|);
    stuck := a.mTaskInProgress == Some(1) && a.mTasks[1].state == Done && a.mTasks[1].posted.None?;
    taskCount := |a.mTasks|;
  }
}

=== FILE: mod_rows.dfy ===
/**
 * One row of the mod search list (ModItemAdapter.ViewHolder). A row is a
 * recycled container: it is rebound to other items while detail fetches it
 * started may still be running. Each detail fetch is a future, identified by
 * its index in mFutures; the worker's steps and the runnable it posts to the
 * main thread are separate events, applied in any order the caller picks.
 */
module ModpackRows {
  import opened Wrappers
  import opened ModpackSearch

  /** What the version spinner is backed by. */
  datatype SpinnerSource = NoAdapter | LoadingAdapter | VersionList(names: seq<string>)

  /** Calls made on the icon cache, whose internals are not modelled. */
  datatype IconCall = GetImage(receiver: nat, tag: string, url: string) | CancelImage(receiver: nat)

  /**
   * A detail future: its executor state, whether cancel() succeeded, the item
   * its worker asked details for, what the worker posted (a detail or null),
   * and whether the posted runnable has run.
   */
  datatype DetailTask = DetailTask(state: FutureState, cancelled: bool, fetchedFor: Option<ModItem>,
                                   posted: Option<Option<ModDetail>>, postRan: bool)

  /** A task that has just been submitted. */
  const NewDetailTask := DetailTask(NotStarted, false, None, None, false)

  predicate WellFormed(t: DetailTask)
  {
    && (t.posted.Some? ==> t.state != NotStarted)
    && (t.postRan ==> t.posted.Some?)
  }

  /** mFutures after cancel(true) on future i. */
  function CancelTask(tasks: seq<DetailTask>, i: nat): (r: seq<DetailTask>)
    requires i < |tasks|
  {
    tasks[i := tasks[i].(cancelled := CancelOutcome(tasks[i].state, tasks[i].cancelled))]
  }

  /** The task's worker and posted result concern the given item. */
  predicate AboutItem(t: DetailTask, item: Option<ModItem>)
  {
    && (t.state != NotStarted ==> t.fetchedFor == item)
    && (t.posted.Some? && t.posted.value.Some? ==> item == Some(t.posted.value.value.item))
  }

  /** Everything a row shows or holds, except its futures. */
  datatype RowView = RowView(item: Option<ModItem>, detail: Option<ModDetail>, extensionFuture: Option<nat>,
                             imageReceiver: Option<nat>, installEnabled: bool, hasExtended: bool,
                             extendedVisible: bool, buttonEnabled: bool, errorVisible: bool,
                             spinner: SpinnerSource, iconCalls: seq<IconCall>, nextReceiver: nat)

  class ViewHolder {
    var mModItem: Option<ModItem>
    var mModDetail: Option<ModDetail>
    var mExtensionFuture: Option<nat>
    var mImageReceiver: Option<nat>
    var mInstallEnabled: bool
    /** The detail stub has been inflated (mExtendedLayout != null). */
    var mHasExtended: bool
    /** The detail layout is visible (isExtended()). */
    var mExtendedVisible: bool
    /** The install button's enabled state. */
    var mButtonEnabled: bool
    /** The detail error text is visible. */
    var mErrorVisible: bool
    var mSpinner: SpinnerSource
    /** Every detail future this row has submitted, by id. */
    var mFutures: seq<DetailTask>
    var mIconCalls: seq<IconCall>
    /** Id of the next image receiver this row creates. */
    var mNextReceiver: nat

    ghost predicate Valid()
      reads this
    {
      && (mExtensionFuture.Some? ==>
            && mExtensionFuture.value < |mFutures|
            && !mFutures[mExtensionFuture.value].cancelled
            && !mFutures[mExtensionFuture.value].postRan
            && mSpinner == LoadingAdapter
            && !mInstallEnabled)
      && (!mHasExtended ==> mFutures == [] && mModDetail.None? && !mExtendedVisible)
      && (mHasExtended && mButtonEnabled ==> mInstallEnabled)
      && (forall i :: 0 <= i < |mFutures| ==> WellFormed(mFutures[i]))
    }

    /**
     * The row shows and holds only the bound item's state: its detail, the
     * pending future's fetch and result, the version list when expanded, and an
     * enabled install only next to a fetched detail.
     */
    ghost predicate Coherent()
      reads this
    {
      && (mModDetail.Some? ==> mModItem == Some(mModDetail.value.item))
      && (mExtensionFuture.Some? && mExtensionFuture.value < |mFutures| ==>
            AboutItem(mFutures[mExtensionFuture.value], mModItem))
      && (mSpinner.VersionList? ==>
            (mModDetail.Some? && mSpinner.names == mModDetail.value.versionNames)
            || (mModDetail.None? && !mExtendedVisible))
      && (mInstallEnabled ==> mModDetail.Some? || !mExtendedVisible)
    }

    ghost function View(): RowView
      reads this
    {
      RowView(mModItem, mModDetail, mExtensionFuture, mImageReceiver, mInstallEnabled, mHasExtended,
              mExtendedVisible, mButtonEnabled, mErrorVisible, mSpinner, mIconCalls, mNextReceiver)
    }

    constructor ()
      ensures Valid() && Coherent()
      ensures mModItem == None && mModDetail == None && mExtensionFuture == None && mImageReceiver == None
      ensures !mInstallEnabled && !mHasExtended && !mExtendedVisible && !mButtonEnabled && !mErrorVisible
      ensures mSpinner == NoAdapter && mFutures == [] && mIconCalls == [] && mNextReceiver == 0
    {
      mModItem, mModDetail, mExtensionFuture, mImageReceiver := None, None, None, None;
      mInstallEnabled, mHasExtended, mExtendedVisible := false, false, false;
      mButtonEnabled, mErrorVisible, mSpinner := false, false, NoAdapter;
      mFutures, mIconCalls, mNextReceiver := [], [], 0;
    }

    /**
     * setStateLimited: rebinding the row to item forgets the detail, cancels
     * the previous image request and the pending detail future, requests the
     * new icon and collapses the detail view. Afterwards the row is coherent
     * whatever it showed before.
     */
    method SetStateLimited(item: ModItem)
      requires Valid()
      modifies this
      ensures Valid() && Coherent()
      ensures mModItem == Some(item) && mModDetail == None && mExtensionFuture == None && !mExtendedVisible
      ensures mFutures == if old(mExtensionFuture).Some? then CancelTask(old(mFutures), old(mExtensionFuture).value)
                          else old(mFutures)
      ensures mImageReceiver == Some(old(mNextReceiver)) && mNextReceiver == old(mNextReceiver) + 1
      ensures mIconCalls == old(mIconCalls)
                            + (if old(mImageReceiver).Some? then [CancelImage(old(mImageReceiver).value)] else [])
                            + [GetImage(old(mNextReceiver), item.iconCacheTag, item.imageUrl)]
      ensures mHasExtended == old(mHasExtended) && mInstallEnabled == old(mInstallEnabled)
      ensures mButtonEnabled == old(mButtonEnabled) && mErrorVisible == old(mErrorVisible) && mSpinner == old(mSpinner)
    {
      mModDetail := None;
      if mImageReceiver.Some? {
        mIconCalls := mIconCalls + [CancelImage(mImageReceiver.value)];
      }
      if mExtensionFuture.Some? {
        mFutures := CancelTask(mFutures, mExtensionFuture.value);
        mExtensionFuture := None;
      }
      mModItem := Some(item);
      mImageReceiver := Some(mNextReceiver);
      mIconCalls := mIconCalls + [GetImage(mNextReceiver, item.iconCacheTag, item.imageUrl)];
      mNextReceiver := mNextReceiver + 1;
      if mHasExtended {
        mExtendedVisible := false;
      }
    }

    /** updateInstallButtonState: an inflated button is enabled iff install is enabled and no task runs. */
    method UpdateInstallButtonState(tasksRunning: bool)
      requires Valid()
      modifies this`mButtonEnabled
      ensures Valid()
      ensures mButtonEnabled == if mHasExtended then mInstallEnabled && !tasksRunning else old(mButtonEnabled)
    {
      if mHasExtended {
        mButtonEnabled := mInstallEnabled && !tasksRunning;
      }
    }

    /**
     * setStateDetailed: a fetched detail enables install and lists its version
     * names; a null detail collapses the view, disables install and shows the error.
     */
    method SetStateDetailed(detail: Option<ModDetail>, tasksRunning: bool)
      requires mHasExtended
      modifies this`mInstallEnabled, this`mButtonEnabled, this`mErrorVisible, this`mSpinner, this`mExtendedVisible
      ensures mInstallEnabled == detail.Some? && mErrorVisible == detail.None?
      ensures mButtonEnabled == (detail.Some? && !tasksRunning)
      ensures mSpinner == if detail.Some? then VersionList(detail.value.versionNames) else NoAdapter
      ensures mExtendedVisible == (detail.Some? && old(mExtendedVisible))
    {
      if detail.Some? {
        mInstallEnabled := true;
        mButtonEnabled := !tasksRunning;
        mErrorVisible := false;
        mSpinner := VersionList(detail.value.versionNames);
      } else {
        mExtendedVisible := false;
        mInstallEnabled := false;
        mButtonEnabled := false;
        mErrorVisible := true;
        mSpinner := NoAdapter;
      }
    }

    /**
     * The row's click listener: the first click inflates the detail view, later
     * clicks toggle it. A fetch is submitted exactly when the view ends up
     * expanded, no detail is held and no fetch is pending; it resets the detail
     * view to its loading state.
     */
    method OnClick()
      requires Valid()
      modifies this
      ensures Valid() && (old(Coherent()) ==> Coherent())
      ensures mHasExtended
      ensures mExtendedVisible == (!old(mHasExtended) || !old(mExtendedVisible))
      ensures var fetch := mExtendedVisible && old(mModDetail).None? && old(mExtensionFuture).None?;
              if fetch then
                && mFutures == old(mFutures) + [NewDetailTask]
                && mExtensionFuture == Some(|old(mFutures)|)
                && !mInstallEnabled && !mButtonEnabled && !mErrorVisible && mSpinner == LoadingAdapter
              else
                && mFutures == old(mFutures) && mExtensionFuture == old(mExtensionFuture)
                && mInstallEnabled == old(mInstallEnabled) && mErrorVisible == old(mErrorVisible)
                && mButtonEnabled == old(mButtonEnabled) && mSpinner == old(mSpinner)
      ensures mModItem == old(mModItem) && mModDetail == old(mModDetail) && mImageReceiver == old(mImageReceiver)
      ensures mIconCalls == old(mIconCalls) && mNextReceiver == old(mNextReceiver)
    {
      if !mHasExtended {
        // Inflating the stub: the button starts enabled, the spinner loading.
        mHasExtended := true;
        mExtendedVisible := true;
        mButtonEnabled := true;
        mSpinner := LoadingAdapter;
      } else {
        mExtendedVisible := !mExtendedVisible;
      }
      if mExtendedVisible && mModDetail.None? && mExtensionFuture.None? {
        // setDetailedStateDefault
        mInstallEnabled := false;
        mButtonEnabled := false;
        mSpinner := LoadingAdapter;
        mErrorVisible := false;
        mExtendedVisible := true;
        mExtensionFuture := Some(|mFutures|);
        mFutures := mFutures + [NewDetailTask];
      }
    }

    /** The detail worker starts: getModDetails is asked about the item bound now. */
    method RunDetailTask(f: nat)
      requires Valid() && f < |mFutures| && mFutures[f].state == NotStarted && !mFutures[f].cancelled
      modifies this`mFutures
      ensures Valid() && (old(Coherent()) ==> Coherent())
      ensures mFutures == old(mFutures)[f := old(mFutures)[f].(state := Running, fetchedFor := mModItem)]
    {
      mFutures := mFutures[f := mFutures[f].(state := Running, fetchedFor := mModItem)];
    }

    /**
     * The detail worker's answer arrives, as written: it is stored in
     * mModDetail at once, before the posted runnable checks for cancellation,
     * whatever item the row shows by now. The answer concerns the item the
     * worker asked about.
     */
    method PostDetail(f: nat, detail: Option<ModDetail>)
      requires Valid() && f < |mFutures| && mFutures[f].state == Running && mFutures[f].posted.None?
      requires detail.Some? ==> mFutures[f].fetchedFor == Some(detail.value.item)
      modifies this`mModDetail, this`mFutures
      ensures Valid()
      ensures old(Coherent()) && old(mExtensionFuture) == Some(f) ==> Coherent()
      ensures mModDetail == detail
      ensures mFutures == old(mFutures)[f := old(mFutures)[f].(posted := Some(detail))]
    {
      mModDetail := detail;
      mFutures := mFutures[f := mFutures[f].(posted := Some(detail))];
    }

    /**
     * The detail worker's answer arrives, corrected: it travels with the posted
     * runnable and the row itself does not change.
     */
    method PostDetailFixed(f: nat, detail: Option<ModDetail>)
      requires Valid() && f < |mFutures| && mFutures[f].state == Running && mFutures[f].posted.None?
      requires detail.Some? ==> mFutures[f].fetchedFor == Some(detail.value.item)
      modifies this`mFutures
      ensures Valid() && (old(Coherent()) ==> Coherent())
      ensures mFutures == old(mFutures)[f := old(mFutures)[f].(posted := Some(detail))]
    {
      mFutures := mFutures[f := mFutures[f].(posted := Some(detail))];
    }

    /** The worker returns (or throws): the future is done and can no longer be cancelled. */
    method FinishDetailTask(f: nat)
      requires Valid() && f < |mFutures| && mFutures[f].state == Running
      modifies this`mFutures
      ensures Valid() && (old(Coherent()) ==> Coherent())
      ensures mFutures == old(mFutures)[f := old(mFutures)[f].(state := Done)]
    {
      mFutures := mFutures[f := mFutures[f].(state := Done)];
    }

    /**
     * The posted runnable runs on the main thread, as written: it does nothing
     * if its own future was cancelled; otherwise it clears mExtensionFuture and
     * shows whatever mModDetail holds now.
     */
    method RunPostedDetail(f: nat, tasksRunning: bool)
      requires Valid() && f < |mFutures| && mFutures[f].posted.Some? && !mFutures[f].postRan
      modifies this
      ensures Valid() && (old(Coherent()) ==> Coherent())
      ensures mFutures == old(mFutures)[f := old(mFutures)[f].(postRan := true)]
      ensures old(mFutures[f].cancelled) ==> View() == old(View())
      ensures !old(mFutures[f].cancelled) ==>
                && mExtensionFuture == None && mModDetail == old(mModDetail)
                && mInstallEnabled == mModDetail.Some? && mErrorVisible == mModDetail.None?
                && mButtonEnabled == (mModDetail.Some? && !tasksRunning)
                && mSpinner == (if mModDetail.Some? then VersionList(mModDetail.value.versionNames) else NoAdapter)
                && mExtendedVisible == (mModDetail.Some? && old(mExtendedVisible))
      ensures mModItem == old(mModItem) && mImageReceiver == old(mImageReceiver) && mHasExtended == old(mHasExtended)
      ensures mIconCalls == old(mIconCalls) && mNextReceiver == old(mNextReceiver)
    {
      mFutures := mFutures[f := mFutures[f].(postRan := true)];
      if mFutures[f].cancelled {
        return;
      }
      mExtensionFuture := None;
      SetStateDetailed(mModDetail, tasksRunning);
    }

    /**
     * The posted runnable runs on the main thread, corrected: it applies its own
     * answer only while its future is still the row's pending one, and otherwise
     * leaves the row exactly as it is.
     */
    method RunPostedDetailFixed(f: nat, tasksRunning: bool)
      requires Valid() && f < |mFutures| && mFutures[f].posted.Some? && !mFutures[f].postRan
      modifies this
      ensures Valid() && (old(Coherent()) ==> Coherent())
      ensures mFutures == old(mFutures)[f := old(mFutures)[f].(postRan := true)]
      ensures old(mExtensionFuture) != Some(f) ==> View() == old(View())
      ensures old(mExtensionFuture) == Some(f) ==>
                var detail := old(mFutures[f].posted.value);
                && mExtensionFuture == None && mModDetail == detail
                && mInstallEnabled == detail.Some? && mErrorVisible == detail.None?
                && mButtonEnabled == (detail.Some? && !tasksRunning)
                && mSpinner == (if detail.Some? then VersionList(detail.value.versionNames) else NoAdapter)
                && mExtendedVisible == (detail.Some? && old(mExtendedVisible))
      ensures mModItem == old(mModItem) && mImageReceiver == old(mImageReceiver) && mHasExtended == old(mHasExtended)
      ensures mIconCalls == old(mIconCalls) && mNextReceiver == old(mNextReceiver)
    {
      var detail := mFutures[f].posted.value;
      mFutures := mFutures[f := mFutures[f].(postRan := true)];
      if mExtensionFuture != Some(f) {
        return;
      }
      mExtensionFuture := None;
      mModDetail := detail;
      SetStateDetailed(detail, tasksRunning);
    }
  }

  /**
   * In a coherent row, an expanded row whose install button is enabled holds
   * the detail of the item it shows: the install button installs that item.
   */
  lemma InstallTargetsShownItem(h: ViewHolder)
    requires h.Valid() && h.Coherent()
    requires h.mExtendedVisible && h.mButtonEnabled
    ensures h.mModDetail.Some? && h.mModItem == Some(h.mModDetail.value.item)
  {
  }

  /**
   * Row bound to a; its fetch F0 starts for a; the row is rebound to b while F0
   * runs (so F0 is cancelled); b is expanded and its fetch F1 posts b's detail;
   * then F0's worker posts a's detail. As written, F0 stores a's detail in
   * mModDetail before checking its cancellation, and F1's runnable shows that
   * field: b's row lists a's versions with install enabled, and install would
   * install a.
   */
  method StaleDetailAsWritten(a: ModItem, b: ModItem, va: seq<string>, vb: seq<string>)
    returns (shown: Option<ModItem>, installs: Option<ModDetail>, spinner: SpinnerSource, buttonEnabled: bool)
    requires a != b
    ensures shown == Some(b) && installs == Some(ModDetail(a, va))
    ensures spinner == VersionList(va) && buttonEnabled
  {
    var h := new ViewHolder();
    h.SetStateLimited(a);
    h.OnClick();
    h.RunDetailTask(0);
    h.SetStateLimited(b);
    h.OnClick();
    h.RunDetailTask(1);
    h.PostDetail(1, Some(ModDetail(b, vb)));
    h.PostDetail(0, Some(ModDetail(a, va)));
    h.RunPostedDetail(1, false);
    h.RunPostedDetail(0, false);
    return h.mModItem, h.mModDetail, h.mSpinner, h.mButtonEnabled;
  }

  /** The same events with the corrected worker and runnable: b's row shows and installs b. */
  method StaleDetailFixed(a: ModItem, b: ModItem, va: seq<string>, vb: seq<string>)
    returns (shown: Option<ModItem>, installs: Option<ModDetail>, spinner: SpinnerSource, buttonEnabled: bool)
    requires a != b
    ensures shown == Some(b) && installs == Some(ModDetail(b, vb))
    ensures spinner == VersionList(vb) && buttonEnabled
  {
    var h := new ViewHolder();
    h.SetStateLimited(a);
    h.OnClick();
    h.RunDetailTask(0);
    h.SetStateLimited(b);
    h.OnClick();
    h.RunDetailTask(1);
    h.PostDetailFixed(1, Some(ModDetail(b, vb)));
    h.PostDetailFixed(0, Some(ModDetail(a, va)));
    h.RunPostedDetailFixed(1, false);
    h.RunPostedDetailFixed(0, false);
    return h.mModItem, h.mModDetail, h.mSpinner, h.mButtonEnabled;
  }

  /**
   * Row bound to a; its fetch F0 completes and posts a's detail; the row is
   * rebound to b before the runnable runs. cancel() on the completed F0 fails,
   * so as written F0's runnable still passes its check: it forgets b's pending
   * fetch F1 and collapses b's expanded row with the error of a failure that
   * never happened.
   */
  method LateRunnableAsWritten(a: ModItem, b: ModItem, va: seq<string>)
    returns (pending: Option<nat>, expanded: bool, errorShown: bool, f1Running: bool)
    ensures pending == None && !expanded && errorShown && f1Running
  {
    var h := new ViewHolder();
    h.SetStateLimited(a);
    h.OnClick();
    h.RunDetailTask(0);
    h.PostDetail(0, Some(ModDetail(a, va)));
    h.FinishDetailTask(0);
    h.SetStateLimited(b);
    h.OnClick();
    h.RunDetailTask(1);
    h.RunPostedDetail(0, false);
    return h.mExtensionFuture, h.mExtendedVisible, h.mErrorVisible, h.mFutures[1].state == Running;
  }

  /** The same events with the corrected runnable: b's row stays expanded with F1 pending. */
  method LateRunnableFixed(a: ModItem, b: ModItem, va: seq<string>)
    returns (pending: Option<nat>, expanded: bool, errorShown: bool, f1Running: bool)
    ensures pending == Some(1) && expanded && !errorShown && f1Running
  {
    var h := new ViewHolder();
    h.SetStateLimited(a);
    h.OnClick();
    h.RunDetailTask(0);
    h.PostDetailFixed(0, Some(ModDetail(a, va)));
    h.FinishDetailTask(0);
    h.SetStateLimited(b);
    h.OnClick();
    h.RunDetailTask(1);
    h.RunPostedDetailFixed(0, false);
    return h.mExtensionFuture, h.mExtendedVisible, h.mErrorVisible, h.mFutures[1].state == Running;
  }
}

=== FILE: mod_search.dfy ===
/**
 * Values shared by the mod search list (ModItemAdapter) and its rows, and the
 * arithmetic of the list the rendering layer sees: the accumulated items followed
 * by one loading row while more pages may exist.
 */
module ModpackSearch {
  import opened Wrappers

  const VIEW_TYPE_MOD_ITEM: int := 0
  const VIEW_TYPE_LOADING: int := 1
  const ERROR_INTERNAL: int := 0
  const ERROR_NO_RESULTS: int := 1

  /** A catalog entry: identity, display text, icon reference and API source. */
  datatype ModItem = ModItem(id: string, title: string, description: string,
                             imageUrl: string, iconCacheTag: string, apiSource: int)

  /** Extended information about one item (upstream ModDetail extends ModItem). */
  datatype ModDetail = ModDetail(item: ModItem, versionNames: seq<string>)

  /** The active search filters; the adapter only stores and forwards them. */
  datatype SearchFilters = SearchFilters(query: string)

  /** A page as the API returns it; its result list may be null. */
  datatype SearchResult = SearchResult(results: Option<seq<ModItem>>)

  /**
   * The life of a java.util.concurrent.Future: not yet started, running, or
   * done. cancel() succeeds, and isCancelled() becomes true, only before done.
   */
  datatype FutureState = NotStarted | Running | Done

  /** isCancelled() after cancel(true) on a future in the given state. */
  function CancelOutcome(state: FutureState, cancelled: bool): (r: bool)
    ensures r <==> cancelled || state != Done
  {
    if state == Done then cancelled else true
  }

  /** getItemCount: the items, plus the loading row unless the last page was seen. */
  function ItemCount(items: seq<ModItem>, lastPage: bool): (r: nat)
    ensures |items| <= r <= |items| + 1
    ensures r == |items| <==> lastPage
  {
    |items| + (if lastPage then 0 else 1)
  }

  /** getItemViewType: positions below the item count are items, the rest loading. */
  function ItemViewType(items: seq<ModItem>, position: int): (r: int)
    ensures r == VIEW_TYPE_MOD_ITEM || r == VIEW_TYPE_LOADING
    ensures r == VIEW_TYPE_MOD_ITEM <==> position < |items|
  {
    if position < |items| then VIEW_TYPE_MOD_ITEM else VIEW_TYPE_LOADING
  }

  /**
   * Every listed position below |items| shows an item; the only other listed
   * position is the loading row at |items|, present exactly while the last page
   * has not been seen.
   */
  lemma ListShape(items: seq<ModItem>, lastPage: bool)
    ensures ItemCount(items, lastPage) == |items| + 1 <==> !lastPage
    ensures ItemCount(items, lastPage) == |items| <==> lastPage
    ensures forall p :: 0 <= p < ItemCount(items, lastPage) ==>
              (ItemViewType(items, p) == VIEW_TYPE_MOD_ITEM <==> p < |items|)
    ensures forall p :: 0 <= p < ItemCount(items, lastPage) && ItemViewType(items, p) == VIEW_TYPE_LOADING ==>
              p == |items| && !lastPage
    ensures !lastPage ==> ItemViewType(items, |items|) == VIEW_TYPE_LOADING
  {
  }

  /** The change notifications the adapter sends to the RecyclerView. */
  datatype Notice =
    | DataSetChanged
    | ItemChanged(position: int)
    | ItemRangeInserted(start: int, count: int)
    | ItemRemoved(position: int)

  /**
   * The notices describe a change of the item count from oldCount to newCount:
   * a change names an existing position, an insertion or removal moves the count
   * by its size, and a full data-set change accounts for any new count.
   */
  predicate Accounts(oldCount: int, notices: seq<Notice>, newCount: int)
    decreases |notices|
  {
    if notices == [] then oldCount == newCount
    else match notices[0]
      case DataSetChanged => true
      case ItemChanged(p) => 0 <= p < oldCount && Accounts(oldCount, notices[1..], newCount)
      case ItemRangeInserted(s, k) => 0 <= s <= oldCount && 0 <= k && Accounts(oldCount + k, notices[1..], newCount)
      case ItemRemoved(p) => 0 <= p < oldCount && Accounts(oldCount - 1, notices[1..], newCount)
  }

  /**
   * Notices for a later page (ModItemAdapter.java:381-384): the loading row's
   * position changed, then `inserted` items were inserted after it. They
   * describe a list that grew by `inserted`. As written, `inserted` is the
   * length of the whole new list; corrected, it is the length of the page.
   */
  function LaterPageNotices(prevLength: nat, inserted: nat): (r: seq<Notice>)
    ensures Accounts(prevLength + 1, r, prevLength + 1 + inserted)
  {
    var r := [ItemChanged(prevLength), ItemRangeInserted(prevLength + 1, inserted)];
    assert r[1..][1..] == [];
    r
  }

  /**
   * Notices for an empty later page as written (ModItemAdapter.java:366-367):
   * they describe a list whose length did not change.
   */
  function LastPageNoticesAsWritten(prevLength: nat): (r: seq<Notice>)
    ensures Accounts(prevLength + 1, r, prevLength + 1)
  {
    var r := [ItemChanged(prevLength)];
    assert r[1..] == [];
    r
  }

  /** Notices for an empty later page: they describe the loading row going away. */
  function LastPageNotices(prevLength: nat): (r: seq<Notice>)
    ensures Accounts(prevLength + 1, r, prevLength)
  {
    var r := [ItemRemoved(prevLength)];
    assert r[1..] == [];
    r
  }

  /**
   * As written, the insertion after a later page reports the whole new list, so
   * the notices match the change of getItemCount only when the list was empty.
   */
  lemma LaterPageNoticesAsWrittenOvercount(prev: seq<ModItem>, page: seq<ModItem>)
    requires page != []
    ensures Accounts(ItemCount(prev, false), LaterPageNotices(|prev|, |prev + page|),
                     ItemCount(prev + page, false))
            <==> prev == []
  {
    var ns := LaterPageNotices(|prev|, |prev + page|);
    var oldCount, newCount := |prev| + 1, |prev| + |page| + 1;
    assert ns[1..][1..] == [];
    calc {
      Accounts(oldCount, ns, newCount);
      Accounts(oldCount, ns[1..], newCount);
      Accounts(oldCount + |prev + page|, ns[1..][1..], newCount);
      oldCount + |prev| + |page| == newCount;
    }
  }

  /** Sized by the page, the notices after a later page match the change of getItemCount. */
  lemma LaterPageNoticesAccount(prev: seq<ModItem>, page: seq<ModItem>)
    requires page != []
    ensures Accounts(ItemCount(prev, false), LaterPageNotices(|prev|, |page|), ItemCount(prev + page, false))
  {
    var ns := LaterPageNotices(|prev|, |page|);
    assert ns[1..][1..] == [];
  }

  /**
   * As written, the empty last page reports a change at the loading row's
   * position, but getItemCount drops by one: the notices never match.
   */
  lemma LastPageNoticesAsWrittenMismatch(items: seq<ModItem>)
    ensures !Accounts(ItemCount(items, false), LastPageNoticesAsWritten(|items|), ItemCount(items, true))
  {
    assert LastPageNoticesAsWritten(|items|)[1..] == [];
  }

  /** Reporting the loading row as removed matches the drop of getItemCount. */
  lemma LastPageNoticesAccount(items: seq<ModItem>)
    ensures Accounts(ItemCount(items, false), LastPageNotices(|items|), ItemCount(items, true))
  {
    assert LastPageNotices(|items|)[1..] == [];
  }
}

=== FILE: profile_adapter.dfy ===
/**
 * The launcher profile spinner's adapter (ProfileAdapter): the profile names
 * of the loaded launcher profiles, in the key order of their map, followed by
 * caller-supplied extra entries; and the label and background of a profile row.
 */
module Profiles {
  import opened Wrappers

  /** A launcher profile; every field may be null. */
  datatype MinecraftProfile = MinecraftProfile(name: Option<string>, icon: Option<string>,
                                               lastVersionId: Option<string>)

  /** The placeholder used for names without a profile: all fields null. */
  const Dummy := MinecraftProfile(None, None, None)

  /** The loaded profiles by name; a value may be null. */
  type ProfileMap = map<string, Option<MinecraftProfile>>

  /** An extra spinner entry after the profiles (for example "create profile"). */
  datatype ProfileAdapterExtra = ProfileAdapterExtra(name: string, icon: string)

  /** What getItem returns: a profile name, an extra entry, null, or the exception for a negative position. */
  datatype Entry = ProfileName(name: string) | ExtraEntry(extra: ProfileAdapterExtra) | NullItem | IndexOutOfBounds

  /** The localized strings a profile label may use. */
  datatype Labels = Labels(unnamed: string, latestRelease: string, latestSnapshot: string)

  /** list enumerates the keys of m, each once. */
  ghost predicate Enumerates(list: seq<string>, m: ProfileMap)
  {
    && (forall k :: k in list <==> k in m)
    && (forall i, j :: 0 <= i < j < |list| ==> list[i] != list[j])
  }

  /**
   * The map's key set copied into a list (keySet().toArray()); the order is
   * the map's iteration order, which is left open.
   */
  method KeysOf(m: ProfileMap) returns (list: seq<string>)
    ensures Enumerates(list, m)
    ensures |list| == |m.Keys|
  {
    list := [];
    var rest := m.Keys;
    while rest != {}
      invariant rest <= m.Keys
      invariant forall k :: k in list <==> k in m && k !in rest
      invariant forall i, j :: 0 <= i < j < |list| ==> list[i] != list[j]
      invariant |list| + |rest| == |m.Keys|
      decreases |rest|
    {
      var k :| k in rest;
      list := list + [k];
      rest := rest - {k};
    }
  }

  /** indexOf: the first position of x in s, or -1. */
  function IndexOf(s: seq<string>, x: string): (r: int)
    ensures -1 <= r < |s|
    ensures r == -1 <==> x !in s
    ensures r >= 0 ==> s[r] == x && x !in s[..r]
  {
    if s == [] then -1
    else if s[0] == x then 0
    else
      var k := IndexOf(s[1..], x);
      assert s[1..][..if k < 0 then 0 else k] == s[1..if k < 0 then 1 else k + 1];
      if k < 0 then -1 else k + 1
  }

  /** Tools.isValidString: non-null and non-empty. */
  predicate IsValidString(s: Option<string>)
  {
    s.Some? && s.value != []
  }

  /** ASCII case folding. */
  function Lower(c: char): (r: char)
  {
    if 'A' <= c <= 'Z' then (c as int + 32) as char else c
  }

  /** String.equalsIgnoreCase on ASCII letters. */
  predicate EqualsIgnoreCase(a: string, b: string)
  {
    |a| == |b| && forall i :: 0 <= i < |a| ==> Lower(a[i]) == Lower(b[i])
  }

  class ProfileAdapter {
    var mProfiles: ProfileMap
    var mProfileList: seq<string>
    var mExtraEntries: seq<ProfileAdapterExtra>

    ghost predicate Valid()
      reads this
    {
      Enumerates(mProfileList, mProfiles)
    }

    /** The constructor loads the profiles with the given extra entries (null: none). */
    constructor (extraEntries: Option<seq<ProfileAdapterExtra>>, loaded: ProfileMap)
      ensures Valid() && mProfiles == loaded
      ensures mExtraEntries == if extraEntries.Some? then extraEntries.value else []
    {
      var names := KeysOf(loaded);
      mExtraEntries := if extraEntries.Some? then extraEntries.value else [];
      mProfiles := loaded;
      mProfileList := names;
    }

    /** getCount: the profile names followed by the extra entries. */
    function GetCount(): (n: int)
      reads this
      ensures n >= |mProfileList| && n - |mProfileList| == |mExtraEntries|
    {
      |mProfileList| + |mExtraEntries|
    }

    /**
     * getItem: a listed name that has a profile, the extra entry at its offset
     * after the names, or null; a negative position makes the list access throw.
     * While the list enumerates the map's keys, every position below the count
     * has an entry.
     */
    function GetItem(position: int): (r: Entry)
      reads this
      ensures position < 0 ==> r == IndexOutOfBounds
      ensures 0 <= position < |mProfileList| ==>
                if mProfileList[position] in mProfiles then r == ProfileName(mProfileList[position]) else r == NullItem
      ensures |mProfileList| <= position < GetCount() ==> r == ExtraEntry(mExtraEntries[position - |mProfileList|])
      ensures position >= GetCount() ==> r == NullItem
      ensures Valid() && 0 <= position < GetCount() ==> r.ProfileName? || r.ExtraEntry?
    {
      var profileListSize := |mProfileList|;
      var extraPosition := position - profileListSize;
      if position < profileListSize then
        if position < 0 then IndexOutOfBounds
        else if mProfileList[position] in mProfiles then ProfileName(mProfileList[position])
        else NullItem
      else if 0 <= extraPosition < |mExtraEntries| then ExtraEntry(mExtraEntries[extraPosition])
      else NullItem
    }

    /** resolveProfileIndex: the first position of the name among the profiles, or -1. */
    function ResolveProfileIndex(name: string): (r: int)
      reads this
      ensures r == -1 <==> name !in mProfileList
      ensures r >= 0 ==> r < |mProfileList| && mProfileList[r] == name && name !in mProfileList[..r]
      ensures r >= 0 && name in mProfiles ==> GetItem(r) == ProfileName(name)
    {
      IndexOf(mProfileList, name)
    }

    /**
     * notifyDataSetChanged: rebuilds the map and the name list from the main
     * profile file's profiles; when that is null the exception is caught and
     * nothing changes.
     */
    method NotifyDataSetChanged(main: Option<ProfileMap>)
      requires Valid()
      modifies this`mProfiles, this`mProfileList
      ensures Valid()
      ensures main.None? ==> mProfiles == old(mProfiles) && mProfileList == old(mProfileList)
      ensures main.Some? ==> mProfiles == main.value && |mProfileList| == |main.value.Keys|
    {
      if main.Some? {
        mProfiles := main.value;
        mProfileList := KeysOf(main.value);
      }
    }

    /**
     * reloadProfiles(extraEntries): null extras become none; the profiles are
     * reloaded (the file loading is not part of this model) and the list
     * rebuilt. When the main profile file is null the reload throws after the
     * extras were stored.
     */
    method ReloadProfiles(extraEntries: Option<seq<ProfileAdapterExtra>>, main: Option<ProfileMap>)
      returns (threw: bool)
      requires Valid()
      modifies this
      ensures Valid()
      ensures mExtraEntries == if extraEntries.Some? then extraEntries.value else []
      ensures threw <==> main.None?
      ensures main.None? ==> mProfiles == old(mProfiles) && mProfileList == old(mProfileList)
      ensures main.Some? ==> mProfiles == main.value && GetCount() == |main.value.Keys| + |mExtraEntries|
    {
      if extraEntries.None? {
        mExtraEntries := [];
      } else {
        mExtraEntries := extraEntries.value;
      }
      if main.None? {
        return true;
      }
      mProfiles := main.value;
      mProfileList := KeysOf(main.value);
      NotifyDataSetChanged(main);
      return false;
    }

    /**
     * The text and background of setViewProfile: the profile's name (the
     * "unnamed" label when it is null or empty, and for a name without a
     * profile), then " - " and the version label when a last version is
     * recorded: the release or snapshot label for the "latest-release" and
     * "latest-snapshot" aliases in any letter case, the raw id otherwise. The
     * background is highlighted exactly when selection display is requested
     * and the stored current profile is this name.
     */
    method SetViewProfile(nm: string, displaySelection: bool, selectedProfile: string, labels: Labels)
      returns (text: string, highlighted: bool)
      ensures var profile := if nm in mProfiles && mProfiles[nm].Some? then mProfiles[nm].value else Dummy;
              var shownName := if IsValidString(profile.name) then profile.name.value else labels.unnamed;
              && (profile.lastVersionId.None? ==> text == shownName)
              && (profile.lastVersionId.Some? ==>
                    var id := profile.lastVersionId.value;
                    && |text| > |shownName| + 2 && text[..|shownName|] == shownName
                    && text[|shownName|..|shownName| + 3] == " - "
                    && text[|shownName| + 3..] == (if EqualsIgnoreCase(id, "latest-release") then labels.latestRelease
                                                   else if EqualsIgnoreCase(id, "latest-snapshot") then labels.latestSnapshot
                                                   else id))
      ensures nm !in mProfiles && labels.unnamed != [] ==> text[..|labels.unnamed|] == labels.unnamed
      ensures highlighted <==> displaySelection && selectedProfile == nm
    {
      var profile := if nm in mProfiles then mProfiles[nm] else None;
      var minecraftProfile := if profile.Some? then profile.value else Dummy;
      if IsValidString(minecraftProfile.name) {
        text := minecraftProfile.name.value;
      } else {
        text := labels.unnamed;
      }
      if minecraftProfile.lastVersionId.Some? {
        var id := minecraftProfile.lastVersionId.value;
        if EqualsIgnoreCase(id, "latest-release") {
          text := text + " - " + labels.latestRelease;
        } else if EqualsIgnoreCase(id, "latest-snapshot") {
          text := text + " - " + labels.latestSnapshot;
        } else {
          text := text + " - " + id;
        }
      }
      highlighted := displaySelection && selectedProfile == nm;
    }
  }

  /** After a reload, every position below the list size resolves to its name. */
  lemma ReloadedPositionsResolve(a: ProfileAdapter, p: int)
    requires a.Valid() && 0 <= p < |a.mProfileList|
    ensures a.GetItem(p) == ProfileName(a.mProfileList[p])
    ensures a.ResolveProfileIndex(a.mProfileList[p]) == p
  {
  }
}

=== FILE: wrappers.dfy ===
/** Optional values: a Java reference that may be null becomes an Option. */
module Wrappers {
  datatype Option<+T> = None | Some(value: T)
}
